=== FILE: README.md ===
# Task tracker core in Dafny

This project models the core of a small single-user task tracker written in Python:

- the `Task` value object (task.py), with its constructor, its validating property
  setters, `to_dict` and id-based equality;
- the `TaskManager` store (task_manager.py): the in-memory cache of tasks loaded from
  the database, add, get, list, update, mark-completed and delete, and the
  hand-written filter and merge sort;
- the three input validators of utils.py.

The model is functional. A task is an immutable record, and a setter returns either
the new record or the `ValueError` it raises. The cache is an insertion-ordered map:
a key sequence kept beside a Dafny `map`, which is how a Python `dict` iterates. Each
store operation is a function from the cache before, plus the database's answer, to
the cache after and the value returned. The database itself is never modelled: its
answer is a parameter.

Python's string operations are modelled on ASCII in `Text`: `strip`, `lower`,
`capitalize` and `<=`. `datetime.strptime(s, '%Y-%m-%d')` is modelled in `Dates` with
the regular expression CPython's `_strptime` builds. That expression accepts a month
or day without its leading zero, and a day padded with a space.

Modules, one per file:

| file | module | models |
|---|---|---|
| wrappers.dfy | `Wrappers` | `Option`, `Result` |
| text.dfy | `Text` | `str.strip`, `lower`, `capitalize`, `<=` |
| dates.dfy | `Dates` | `strptime` with `%Y-%m-%d`; zero-padded formatting |
| task.dfy | `TaskModel` | task.py |
| validators.dfy | `Validators` | `validate_date`, `validate_priority`, `validate_status` |
| cache.dfy | `OrderedCache` | the `dict` behind the cache |
| sorting.dfy | `Sorting` | `sort_tasks`, `merge_sort`, `merge`, `get_sort_key` |
| filtering.dfy | `Filtering` | `filter_tasks` over a list |
| store.dfy | `Store` | `TaskManager` |

Behaviour of the code worth knowing:

- The constructor only rejects blank text. It does not check the due date or the
  two enumerations, so `Task(..., due_date="2024-13-01", priority="urgent")`
  succeeds (`Validators.ConstructorDoesNotValidate`).
- Loading stops at the first row the constructor rejects, keeping the rows before
  it, because the `try` encloses the whole loop. Bad rows are not skipped.
- `update_task` writes each value with `setattr` on the private attribute, past the
  validating setters: a raw value goes into the task unchecked and unnormalised.
- `add_task` catches every exception: a validation error gives `None`, it is not
  propagated. A non-positive id from the database is refused by the `task_id`
  setter, and then nothing is cached.
- Sorting by due date compares the stored strings. That is chronological only for
  zero-padded dates (`Sorting.DueDateOrderOnIsoDates`). The setter also accepts
  `2024-9-01`, which sorts after `2024-10-01`
  (`Sorting.UnpaddedDueDatesMisordered`).

## Model

| member | source | states |
|---|---|---|
| Text.Trim | task.py:50-52 | `strip()` gives text with nothing left to strip. It is empty exactly when the input is blank, and it is the slice of the input that holds every non-space character |
| Text.CapitalizeIgnoresCase | task.py:53-54 | `capitalize()` gives the same result whatever the letter case of its input |
| Text.CapitalizeIdempotent | task.py:53-54 | capitalising twice is capitalising once |
| Text.LexLeTotal | task_manager.py:251 | string `<=` relates every two strings one way or the other |
| Text.LexLeTransitive | task_manager.py:251 | string `<=` chains |
| Text.LexLeAntisymmetric | task_manager.py:251 | two strings each `<=` the other are equal |
| Text.LexLeAppend | task_manager.py:251 | with equal-length leading parts, the first difference in those parts decides; if they are equal, the rest decides |
| Dates.IsoRoundTrip | utils.py:21-25 | `strptime` reads a zero-padded `YYYY-MM-DD` back as its date exactly when that date exists in the calendar, and fails otherwise |
| Dates.IsoOrderIsChronological | task_manager.py:228-229 | on zero-padded dates, string order is year-month-day order, and equal strings are equal dates |
| Dates.Pad4Order | task_manager.py:228-229 | four-digit zero-padded numbers compare as strings as they do as numbers |
| TaskModel.NewTask | task.py:36-55 | the constructor fails on the first blank argument, in parameter order: title, description, due date, priority, then status. Otherwise it stores stripped text, and priority and status as stripped capitalised words with the same letters. It keeps the id and the given timestamp, or `now` when none is given |
| TaskModel.NormalWord | task.py:53-54 | `capitalize(strip(s))` of non-blank `s` is stripped, non-empty, a fixed point of `capitalize`, and case-equal to `strip(s)` |
| TaskModel.WithTaskId | task.py:64-69 | the id setter accepts `None` or a positive id and changes nothing else; otherwise it raises |
| TaskModel.WithTitle | task.py:76-81 | the title setter rejects blank text and stores it stripped, touching no other field |
| TaskModel.WithDescription | task.py:88-93 | the description setter rejects blank text and stores it stripped, touching no other field |
| TaskModel.WithDueDate | task.py:100-110 | the due-date setter accepts exactly what `strptime` parses after stripping, raising the empty-field error for blank text. It stores the text stripped, touching no other field |
| TaskModel.WithPriority | task.py:117-123 | the priority setter accepts exactly the texts whose stripped lower case is low, medium or high. It stores a capitalised word with the same letters, touching no other field |
| TaskModel.WithStatus | task.py:130-136 | the status setter accepts exactly the texts whose stripped lower case is pending, in progress or completed. It stores a capitalised word with the same letters, touching no other field |
| TaskModel.PrioritySetCanonical | task.py:117-123 | whatever its case and padding, an accepted priority is stored as Low, Medium or High |
| TaskModel.StatusSetCanonical | task.py:130-136 | whatever its case and padding, an accepted status is stored as Pending, In progress or Completed |
| TaskModel.PrioritySetIdempotent | task.py:117-123 | setting the stored priority again changes nothing |
| TaskModel.StatusSetIdempotent | task.py:130-136 | setting the stored status again changes nothing |
| TaskModel.ToDict | task.py:143-158 | each dictionary entry is the attribute of the same name, and for a task in the constructor's shape, passing the entries back to the constructor rebuilds the same task |
| TaskModel.SameTask | task.py:170-182 | `__eq__` compares ids only. A predicate with no contract of its own; `Store.CachedEqualityIsKeyEquality` is its partner |
| Validators.ValidateDate | utils.py:11-25 | the date validator accepts exactly what `strptime` parses; what it accepts is a real calendar date with no surrounding space |
| Validators.ValidatePriority | utils.py:28-39 | a priority is accepted exactly when, stripped and lower-cased, it is low, medium or high. An accepted priority is not blank, and stripped and capitalised it is Low, Medium or High |
| Validators.ValidateStatus | utils.py:42-53 | a status is accepted exactly when, stripped and lower-cased, it is pending, in progress or completed. An accepted status is not blank, and stripped and capitalised it is Pending, In progress or Completed |
| Dates.ParseDate | utils.py:21-25 | a string `strptime` parses gives a real calendar date, and it has 8 to 10 characters with no surrounding space |
| Validators.PriorityValidatorMatchesSetter | utils.py:38-39 | the priority validator accepts exactly what the priority setter accepts |
| Validators.StatusValidatorMatchesSetter | utils.py:52-53 | the status validator accepts exactly what the status setter accepts |
| Validators.ValidatorsIgnoreCase | utils.py:38-39 | both enumeration validators ignore letter case and surrounding space |
| Validators.ValidDateAcceptedBySetter | utils.py:21-25 | a date the validator accepts is stored verbatim by the due-date setter |
| Validators.SetterAcceptsWhatValidatorRejects | task.py:106-107 | the setter strips before parsing and the validator does not, so `" 2024-01-15"` passes one and fails the other |
| Validators.ValidateDateOnIsoForms | utils.py:21-25 | on zero-padded strings the validator accepts exactly the real calendar dates |
| Validators.LeapDayRule | utils.py:21-25 | February 29 of a year from 1 to 9999 is accepted exactly in leap years |
| Validators.LenientDateForms | utils.py:21-25 | a month or day without its leading zero, and a space-padded day, are accepted; trailing text is not |
| Validators.ConstructorDoesNotValidate | task.py:36-46 | the constructor builds a task with month 13 and priority "urgent", both of which the setters and the validators refuse |
| OrderedCache.Get | task_manager.py:97 | `dict.get` finds exactly the present keys, with their values |
| OrderedCache.Put | task_manager.py:80 | assigning a key updates the map. A present key keeps its place in the order, and a new key goes last |
| OrderedCache.Remove | task_manager.py:168 | `del` removes the key from the map and exactly one position from the order |
| OrderedCache.Values | task_manager.py:106 | `values()` lists the value of every key, in key order |
| OrderedCache.ValuesAreEntries | task_manager.py:106 | the listed values are exactly the map's values |
| OrderedCache.ValuesAfterPut | task_manager.py:80 | after an assignment, a new key's value is listed last, and a present key's value is replaced where it stands |
| OrderedCache.ValuesAfterRemove | task_manager.py:168 | after `del`, the key's value is cut out of the listing and the others keep their order |
| Sorting.SortKeyNamed | task_manager.py:222-229 | "priority" and "created_at" select those keys; any other string sorts by due date |
| Sorting.PriorityRank | task_manager.py:220-225 | the rank of a lower-cased priority is 1 for low, 2 for medium and 3 for high, and 0 for anything else |
| Sorting.KeyLe | task_manager.py:222-229 | the order `merge` applies to two tasks' keys. A predicate with no contract of its own; `Sorting.KeyOrderIsTotalPreorder` and `Sorting.PriorityKeyOrder` are its partners |
| Sorting.PriorityKeyOrder | task_manager.py:220-225 | by priority, Low sorts before Medium and Medium before High. An unknown priority sorts strictly before every known one |
| Sorting.Merge | task_manager.py:245-261 | the merged list is as long as both inputs together. `Sorting.MergePermutes`, `Sorting.MergeSorted` and `Sorting.MergeStable` state the rest |
| Sorting.KeyOrderIsTotalPreorder | task_manager.py:222-229 | each sort key is compared by a total, transitive order |
| Sorting.MergePermutes | task_manager.py:245-261 | `merge` outputs exactly the tasks of its two inputs |
| Sorting.MergeSort | task_manager.py:231-243 | `merge_sort` returns a permutation of its input |
| Sorting.MergeLists | task_manager.py:245-261 | the two-index loop and the two `extend` calls compute the merge |
| Sorting.MergeSortList | task_manager.py:231-243 | the recursion using that loop computes the merge sort |
| Sorting.MergeSorted | task_manager.py:245-261 | merging two sorted lists gives a sorted list |
| Sorting.MergeSortSorted | task_manager.py:231-243 | `merge_sort` returns its input with keys in order |
| Sorting.MergeStable | task_manager.py:250-256 | on ties `merge` takes from the left, so tied tasks of the left input come before those of the right, each group in order |
| Sorting.MergeSortStable | task_manager.py:231-243 | `merge_sort` keeps tasks with equal keys in their input order |
| Sorting.Reverse | task_manager.py:264 | `[::-1]` puts element `i` at position `n-1-i` and keeps the multiset |
| Sorting.ReverseSorted | task_manager.py:264 | reversing an ascending list gives a descending one |
| Sorting.TiesReverse | task_manager.py:264 | reversal inverts the order of every group of tied tasks |
| Sorting.SortTasks | task_manager.py:203-264 | `sort_tasks` returns a permutation of its input. A list of at most one task is returned unchanged. Keys ascend, or descend when `reverse` is set |
| Sorting.SortTasksStable | task_manager.py:203-264 | ascending, tied tasks keep their input order; descending, their order is inverted |
| Sorting.DescendingIsReversedAscending | task_manager.py:263-264 | the descending result is the ascending result reversed |
| Sorting.DueDateOrderOnIsoDates | task_manager.py:228-229 | comparing zero-padded due dates as strings is chronological order |
| Sorting.UnpaddedDueDatesMisordered | task_manager.py:228-229 | both `2024-10-01` and `2024-9-01` parse, yet October sorts before September |
| Filtering.Narrow | task_manager.py:192-199 | one list comprehension keeps, in order, the tasks meeting its one criterion |
| Filtering.Criteria | task_manager.py:192-199 | a criterion applies exactly when its argument is a non-empty string |
| Filtering.FilterTasks | task_manager.py:175-201 | narrowing once per supplied criterion is a single pass keeping the tasks that meet all of them. With no criterion, every task is kept |
| Filtering.Keep | task_manager.py:189-201 | the single pass that successive narrowing amounts to keeps each task meeting every criterion, as often as it occurs in the input, and no other task |
| Filtering.KeepAppend | task_manager.py:189-201 | the filter never reorders: it distributes over concatenation |
| Filtering.NarrowEachKeep | task_manager.py:189-201 | successive narrowing equals one pass with all the criteria |
| Filtering.FilterContents | task_manager.py:175-201 | a task is in the result exactly when it is in the input and meets every supplied criterion. It appears as often as in the input |
| Filtering.PriorityFilterIgnoresCase | task_manager.py:195-196 | filtering by a priority ignores its letter case |
| Store.FromRow | task_manager.py:43-51 | a row builds a task exactly when none of its five text columns is blank. The task carries the row's id and the constructor's shape |
| Store.LoadablePrefix | task_manager.py:38-53 | the load keeps the rows before the first one the constructor rejects |
| Store.BuildFacts | task_manager.py:42-52 | the loop builds a task from each row until the first failure, and stops there |
| Store.AssignAllEntries | task_manager.py:52 | after the loop's assignments, the keys are the old ones plus the assigned ones, and each value is the old one or one assigned to that key |
| Store.LoadRows | task_manager.py:36-54 | after loading, the keys are the old ones plus the ids of the loaded rows |
| Store.LoadKeepsConsistent | task_manager.py:42-52 | each loaded task sits under its own id with the constructor's shape |
| Store.Open | task_manager.py:25-54 | a new manager's cache is consistent. It is empty when fetching fails, and otherwise holds the ids of the loaded rows. When those ids are distinct, as the primary key makes them, the cache lists them in row order, each with the task built from its row |
| Store.LoadDistinctRows | task_manager.py:42-52 | loading rows with distinct ids into an empty cache lists the loadable rows' ids in row order, and each holds the task built from its row |
| Store.RowRoundTrip | task.py:143-158 | a task rebuilt from its `to_dict()` fields is the same task |
| Store.ReloadRoundTrip | task_manager.py:36-54 | loading the rows of a consistent cache rebuilds the same cache, order included |
| Store.PutAllFresh | task_manager.py:52 | assigning new distinct keys appends them in order |
| Store.GetTask | task_manager.py:87-97 | `get_task` finds exactly the cached ids |
| Store.AllTasks | task_manager.py:99-106 | `get_all_tasks` lists the cached tasks in the order their ids were first stored, each once, and nothing else |
| Store.CachedEqualityIsKeyEquality | task.py:170-182 | in a consistent cache, two cached tasks are equal exactly when they are stored under the same id |
| Store.FilterTasks | task_manager.py:175-201 | the manager's filter is the single pass over `get_all_tasks()`: the cached tasks, in cache order, that meet every supplied criterion |
| Store.AddTask | task_manager.py:56-85 | a task is added exactly when it can be built and the database returns a positive id. It is then cached under that id and differs from the built task only in its id; a new id goes last in `get_all_tasks()`, and a reused one keeps its place. Otherwise the cache is unchanged |
| Store.GetAfterAdd | task_manager.py:56-97 | a task that was added is found again by `get_task` under its new id |
| Store.AddKeepsConsistent | task_manager.py:71-82 | adding keeps every task under its own id and in the constructor's shape |
| Store.DeleteTask | task_manager.py:149-173 | deletion succeeds exactly when the id is cached and the database agrees; only then is the cache the one `OrderedCache.Remove` gives, so by `OrderedCache.ValuesAfterRemove` the other tasks keep their order |
| Store.DeleteKeepsConsistent | task_manager.py:149-173 | deleting keeps every task under its own id, and a deleted id is no longer found |
| Store.FieldNamed | task_manager.py:127 | each of the seven attribute names (`task_id`, `title`, `description`, `due_date`, `priority`, `status`, `created_at`) selects its own attribute. Any other name selects none |
| Store.Write | task_manager.py:128 | `setattr` stores the raw value in one attribute and leaves the others alone |
| Store.ApplyKwargs | task_manager.py:126-128 | after the keyword loop, each attribute holds the last value given for it, or its old value |
| Store.UpdateTask | task_manager.py:108-135 | for keywords other than `task_id`: an unknown id gives false and changes nothing. Otherwise the cached task is rewritten in place, with key order and id kept, and the database's answer is returned |
| Store.UpdateKeepsOwnIds | task_manager.py:108-131 | an update leaves every cached task under its own id |
| Store.UpdateIgnoresRefusal | task_manager.py:125-132 | the cache after an update is the same whether or not the database accepts it |
| Store.UnknownKeywordsIgnored | task_manager.py:126-128 | keywords naming no attribute change nothing |
| Store.UpdateStoresRawPriority | task_manager.py:126-128 | a priority given to an update is stored exactly as given |
| Store.UpdateBypassesValidation | task_manager.py:126-128 | an update can store a priority the setter and the validator refuse |
| Store.MarkCompleted | task_manager.py:137-147 | marking completed sets the status to "Completed" and changes nothing else |
| Store.MarkCompletedKeepsConsistent | task_manager.py:147 | marking completed keeps the cache consistent |
| Store.MarkCompletedMatchesSetter | task_manager.py:147 | the raw "Completed" is what the status setter would have stored |

## Left out

- database.py is not part of this model. Its answers are parameters: the fetched
  rows or a failure, the inserted id or none, and the update and delete flags.
  What the database stores, and the arguments it is called with, are not modelled.
- The command-line interface (`TaskCLI`, `main`) and the display helpers of utils.py
  (`clear_screen`, `print_header`, `print_task_table`) do input and output only.
- The error messages printed by the `except` branches are output only; the model
  keeps the values returned.
- `datetime.now()` is the `now` parameter, and a `datetime` is an integer whose order
  is time order.
- Strings are ASCII: `strip`, `lower`, `capitalize` and string order follow Python on
  ASCII characters only. Unicode whitespace and case mappings are not modelled.
- Store.UpdateTask: keyword values are restricted to the type each attribute holds
  (`WellTyped`). Python would also store, say, a number as a priority. A later
  priority or status filter, or a sort by priority, would then raise `AttributeError`
  from `.lower()`, and a sort by due date mixing text and non-text due dates would
  raise `TypeError`; none of this is modelled. Both callers in the program pass
  stripped strings: the update screen (task_manager.py:386-440) and `mark_completed`
  (task_manager.py:147).
- Store.UpdateTask: a `task_id` keyword is not modelled. Python binds it to the
  positional `task_id` parameter and raises `TypeError` before the method body
  runs (task_manager.py:108), so no such call reaches the keyword loop.
- Default arguments are explicit parameters: `status="Pending"`, `task_id=None` and
  `created_at=None` of the constructor, `status="Pending"` of `add_task`, and
  `sort_by="due_date"` and `reverse=False` of `sort_tasks`.
- Store.AddTask: an `insert_task` that raises and one that returns no id are both
  the answer `None`. The task dictionary passed to it is not modelled.
- Python tasks are mutable objects shared between the cache and the lists returned
  to callers. The model returns values, so a caller mutating a returned task is not
  modelled.
- `__str__`, `__repr__` and `__hash__` are not modelled; equality is
  `TaskModel.SameTask`.
- `strptime` is modelled for the `%Y-%m-%d` format only, on ASCII digits.

=== FILE: cache.dfy ===
/** The task cache of `TaskManager`: a Python `dict` from task id to task. A `dict`
    remembers insertion order, and `get_all_tasks()` returns the values in that order,
    so the model keeps the keys in a sequence beside the map. Assigning to a key that
    is already present keeps its position; a new key goes to the end; `del` removes
    the key from wherever it stands. */
module OrderedCache {
  import opened Wrappers
  import opened TaskModel

  datatype Cache = Cache(keys: seq<int>, entries: map<int, Task>)

  /** The key sequence lists each key of the map exactly once. */
  predicate Valid(c: Cache) {
    && (forall i, j :: 0 <= i < j < |c.keys| ==> c.keys[i] != c.keys[j])
    && (forall i :: 0 <= i < |c.keys| ==> c.keys[i] in c.entries)
    && (forall k :: k in c.entries ==> k in c.keys)
  }

  /** `{}` */
  function Empty(): (c: Cache)
    ensures Valid(c) && c.entries == map[] && c.keys == []
  {
    Cache([], map[])
  }

  /** `d.get(k)` */
  function Get(c: Cache, k: int): (r: Option<Task>)
    ensures r.Some? <==> k in c.entries
    ensures r.Some? ==> r.value == c.entries[k]
  {
    if k in c.entries then Some(c.entries[k]) else None
  }

  /** `d[k] = v`: the map updated at `k`; a key already present keeps its place in the
      iteration order, a new key is appended after all the others. */
  function Put(c: Cache, k: int, v: Task): (r: Cache)
    requires Valid(c)
    ensures Valid(r)
    ensures r.entries == c.entries[k := v]
    ensures k in c.entries ==> r.keys == c.keys
    ensures k !in c.entries ==> r.keys == c.keys + [k]
  {
    if k in c.entries then Cache(c.keys, c.entries[k := v])
    else Cache(c.keys + [k], c.entries[k := v])
  }

  /** `s` without the occurrences of `k`, the others in their order. */
  function WithoutKey(s: seq<int>, k: int): (r: seq<int>)
    ensures forall x :: x in r <==> x in s && x != k
    ensures |r| <= |s|
  {
    if s == [] then []
    else if s[0] == k then WithoutKey(s[1..], k)
    else [s[0]] + WithoutKey(s[1..], k)
  }

  /** Removing a key from a sequence of distinct keys keeps them distinct, and removes
      exactly one position when the key occurs. */
  lemma {:induction false} WithoutKeyDistinct(s: seq<int>, k: int)
    requires forall i, j :: 0 <= i < j < |s| ==> s[i] != s[j]
    ensures var r := WithoutKey(s, k);
            forall i, j :: 0 <= i < j < |r| ==> r[i] != r[j]
    ensures k in s ==> |WithoutKey(s, k)| == |s| - 1
    ensures k !in s ==> WithoutKey(s, k) == s
  {
    if s != [] {
      WithoutKeyDistinct(s[1..], k);
      if s[0] == k {
        assert k !in s[1..] by {
          forall j | 1 <= j < |s| ensures s[j] != k {
            assert s[0] != s[j];
          }
        }
      } else {
        var r := WithoutKey(s, k);
        var t := WithoutKey(s[1..], k);
        assert r == [s[0]] + t;
        forall i, j | 0 <= i < j < |r| ensures r[i] != r[j] {
          if i == 0 {
            assert r[j] in s[1..];
          }
        }
        if k !in s {
          assert s == [s[0]] + s[1..];
        }
      }
    }
  }

  /** `del d[k]` for a key that is present: the map without `k`, the other keys in
      their order. */
  function Remove(c: Cache, k: int): (r: Cache)
    requires Valid(c)
    ensures Valid(r)
    ensures r.entries == c.entries - {k}
    ensures k in c.entries ==> |r.keys| == |c.keys| - 1
  {
    WithoutKeyDistinct(c.keys, k);
    KeysAreEntries(c);
    Cache(WithoutKey(c.keys, k), c.entries - {k})
  }

  /** Every key listed in the order is a key of the map. */
  lemma KeysAreEntries(c: Cache)
    requires Valid(c)
    ensures forall x :: x in c.keys <==> x in c.entries
  {
    forall x | x in c.keys ensures x in c.entries {
      var j :| 0 <= j < |c.keys| && c.keys[j] == x;
    }
  }

  /** `list(d.values())`: the value of every key, in the keys' order. */
  function Values(c: Cache): (r: seq<Task>)
    requires Valid(c)
    ensures |r| == |c.keys|
    ensures forall i :: 0 <= i < |c.keys| ==> r[i] == c.entries[c.keys[i]]
  {
    seq(|c.keys|, i requires 0 <= i < |c.keys| => c.entries[c.keys[i]])
  }

  /** The values are exactly the map's values: each task listed is stored under some
      key, and each stored task is listed. */
  lemma ValuesAreEntries(c: Cache)
    requires Valid(c)
    ensures forall t :: t in Values(c) <==> exists k :: k in c.entries && c.entries[k] == t
  {
    var vs := Values(c);
    forall t | t in vs ensures exists k :: k in c.entries && c.entries[k] == t {
      var i :| 0 <= i < |vs| && vs[i] == t;
      assert c.keys[i] in c.entries;
    }
    forall t | exists k :: k in c.entries && c.entries[k] == t ensures t in vs {
      var k :| k in c.entries && c.entries[k] == t;
      var i :| 0 <= i < |c.keys| && c.keys[i] == k;
      assert vs[i] == t;
    }
  }

  /** The position of a present key in the iteration order. */
  function IndexOf(s: seq<int>, k: int): (i: nat)
    requires k in s
    ensures i < |s| && s[i] == k
    ensures forall j :: 0 <= j < i ==> s[j] != k
  {
    if s[0] == k then 0 else 1 + IndexOf(s[1..], k)
  }

  /** Putting a new key lists its value last; overwriting a present key replaces its
      value where it stands and moves nothing. */
  lemma ValuesAfterPut(c: Cache, k: int, v: Task)
    requires Valid(c)
    ensures k !in c.entries ==> Values(Put(c, k, v)) == Values(c) + [v]
    ensures k in c.entries ==>
              Values(Put(c, k, v)) == Values(c)[IndexOf(c.keys, k) := v]
  {
    var r := Put(c, k, v);
    if k in c.entries {
      var n := IndexOf(c.keys, k);
      forall i | 0 <= i < |c.keys| ensures Values(r)[i] == Values(c)[n := v][i] {
        if i != n {
          assert c.keys[i] != k;
        }
      }
    } else {
      forall i | 0 <= i < |c.keys| ensures Values(r)[i] == (Values(c) + [v])[i] {
        assert c.keys[i] != k;
      }
    }
  }

  /** Removing a present key drops its value from where it stood and leaves the others
      in their order. */
  lemma ValuesAfterRemove(c: Cache, k: int)
    requires Valid(c) && k in c.entries
    ensures var n := IndexOf(c.keys, k);
            Values(Remove(c, k)) == Values(c)[..n] + Values(c)[n + 1..]
  {
    var n := IndexOf(c.keys, k);
    WithoutKeyAround(c.keys, k, n);
    var r := Remove(c, k);
    assert r.keys == c.keys[..n] + c.keys[n + 1..];
    var a := Values(r);
    var b := Values(c)[..n] + Values(c)[n + 1..];
    assert |a| == |b|;
    forall i | 0 <= i < |a| ensures a[i] == b[i] {
      if i < n {
        assert r.keys[i] == c.keys[i];
      } else {
        assert r.keys[i] == c.keys[i + 1];
      }
    }
  }

  /** In a sequence of distinct keys, removing `k` cuts out exactly its position. */
  lemma {:induction false} WithoutKeyAround(s: seq<int>, k: int, n: nat)
    requires forall i, j :: 0 <= i < j < |s| ==> s[i] != s[j]
    requires n < |s| && s[n] == k
    ensures WithoutKey(s, k) == s[..n] + s[n + 1..]
  {
    if n == 0 {
      WithoutKeyDistinct(s[1..], k);
      assert k !in s[1..] by {
        forall j | 1 <= j < |s| ensures s[j] != k {
          assert s[0] != s[j];
        }
      }
    } else {
      WithoutKeyAround(s[1..], k, n - 1);
      assert s[1..][..n - 1] + s[1..][n..] == s[1..n] + s[n + 1..];
      assert s[..n] == [s[0]] + s[1..n];
    }
  }
}

=== FILE: dates.dfy ===
/** Calendar dates as `datetime.strptime(s, '%Y-%m-%d')` reads them.

    `_strptime` turns the format into one regular expression: `%Y` is four digits,
    `%m` is `1[0-2]|0[1-9]|[1-9]`, `%d` is `3[01]|[12]\d|0[1-9]|[1-9]| [1-9]`, and the
    dashes are literal. The match is tried from the start of the string; if text is
    left over after it the call fails ("unconverted data remains"). The numbers must
    then form a real `datetime.date`: year 1 to 9999, day within the month, with the
    Gregorian leap-year rule. */
module Dates {
  import opened Wrappers
  import Text

  datatype Date = Date(year: int, month: int, day: int)

  predicate IsLeapYear(y: int) {
    y % 4 == 0 && (y % 100 != 0 || y % 400 == 0)
  }

  function DaysInMonth(y: int, m: int): (n: int)
    requires 1 <= m <= 12
    ensures 28 <= n <= 31
    ensures m == 2 ==> (n == 29 <==> IsLeapYear(y))
  {
    if m == 2 then (if IsLeapYear(y) then 29 else 28)
    else if m == 4 || m == 6 || m == 9 || m == 11 then 30
    else 31
  }

  /** A date `datetime.date(year, month, day)` accepts. */
  predicate IsCalendarDate(d: Date) {
    && 1 <= d.year <= 9999
    && 1 <= d.month <= 12
    && 1 <= d.day <= DaysInMonth(d.year, d.month)
  }

  predicate IsDigit(c: char) {
    '0' <= c <= '9'
  }

  function DigitValue(c: char): (n: int)
    requires IsDigit(c)
    ensures 0 <= n <= 9
  {
    c as int - '0' as int
  }

  function DigitChar(n: int): (c: char)
    requires 0 <= n <= 9
    ensures IsDigit(c) && DigitValue(c) == n
  {
    ('0' as int + n) as char
  }

  /** The `%m` group and the dash after it, at the start of `u`. The alternatives are
      tried in the regular expression's order; the one that is followed by a dash wins.
      Yields the month and the text after the dash. */
  function MonthField(u: string): (r: Option<(int, string)>)
    ensures r.Some? ==> 1 <= r.value.0 <= 12 && |r.value.1| < |u|
  {
    if |u| >= 3 && u[0] == '1' && '0' <= u[1] <= '2' && u[2] == '-' then
      Some((10 + DigitValue(u[1]), u[3..]))
    else if |u| >= 3 && u[0] == '0' && '1' <= u[1] <= '9' && u[2] == '-' then
      Some((DigitValue(u[1]), u[3..]))
    else if |u| >= 2 && '1' <= u[0] <= '9' && u[1] == '-' then
      Some((DigitValue(u[0]), u[2..]))
    else
      None
  }

  /** The `%d` group, which ends the format: the first alternative that matches at the
      start of `v` is taken, and the parse fails if any text is left after it. */
  function DayField(v: string): (r: Option<int>)
    ensures r.Some? ==> 1 <= r.value <= 31
    ensures r.Some? ==> 1 <= |v| <= 2 && IsDigit(v[|v| - 1])
  {
    if |v| >= 2 && v[0] == '3' && '0' <= v[1] <= '1' then
      (if |v| == 2 then Some(30 + DigitValue(v[1])) else None)
    else if |v| >= 2 && '1' <= v[0] <= '2' && IsDigit(v[1]) then
      (if |v| == 2 then Some(10 * DigitValue(v[0]) + DigitValue(v[1])) else None)
    else if |v| >= 2 && v[0] == '0' && '1' <= v[1] <= '9' then
      (if |v| == 2 then Some(DigitValue(v[1])) else None)
    else if |v| >= 1 && '1' <= v[0] <= '9' then
      (if |v| == 1 then Some(DigitValue(v[0])) else None)
    else if |v| >= 2 && v[0] == ' ' && '1' <= v[1] <= '9' then
      (if |v| == 2 then Some(DigitValue(v[1])) else None)
    else
      None
  }

  /** `datetime.strptime(s, '%Y-%m-%d')`: the date it yields, or `None` where it raises
      `ValueError`. Whatever it yields is a real calendar date, and a string it accepts
      has no whitespace to strip at either end. */
  function ParseDate(s: string): (r: Option<Date>)
    ensures r.Some? ==> IsCalendarDate(r.value)
    ensures r.Some? ==> 8 <= |s| <= 10 && Text.IsStripped(s)
  {
    if |s| < 5 || !(IsDigit(s[0]) && IsDigit(s[1]) && IsDigit(s[2]) && IsDigit(s[3])) || s[4] != '-' then
      None
    else
      var year := 1000 * DigitValue(s[0]) + 100 * DigitValue(s[1])
                  + 10 * DigitValue(s[2]) + DigitValue(s[3]);
      match MonthField(s[5..])
      case None => None
      case Some((month, rest)) =>
        match DayField(rest)
        case None => None
        case Some(day) =>
          var d := Date(year, month, day);
          if IsCalendarDate(d) then
            assert s[|s| - 1] == rest[|rest| - 1];
            Some(d)
          else None
  }

  /** Two decimal digits, zero-padded. */
  function Pad2(n: int): (s: string)
    requires 0 <= n <= 99
    ensures |s| == 2
  {
    [DigitChar(n / 10), DigitChar(n % 10)]
  }

  /** Four decimal digits, zero-padded. */
  function Pad4(n: int): (s: string)
    requires 0 <= n <= 9999
    ensures |s| == 4
  {
    Pad2(n / 100) + Pad2(n % 100)
  }

  /** Year, month and day small enough to be written as `YYYY-MM-DD`, whether or not
      they form a real date. */
  predicate IsFormattable(d: Date) {
    0 <= d.year <= 9999 && 1 <= d.month <= 12 && 1 <= d.day <= 31
  }

  /** The zero-padded `YYYY-MM-DD` form (`date.isoformat()`, `strftime('%Y-%m-%d')`). */
  function FormatIso(d: Date): (s: string)
    requires IsFormattable(d)
    ensures |s| == 10 && s[4] == '-' && s[7] == '-'
  {
    Pad4(d.year) + "-" + Pad2(d.month) + "-" + Pad2(d.day)
  }

  /** A zero-padded month followed by a dash is read as that month. */
  lemma MonthOfPad2(m: int, rest: string)
    requires 1 <= m <= 12
    ensures MonthField(Pad2(m) + "-" + rest) == Some((m, rest))
  {
    var u := Pad2(m) + "-" + rest;
    assert u[3..] == rest;
    assert 10 * (m / 10) + m % 10 == m;
  }

  /** A zero-padded day is read as that day. */
  lemma DayOfPad2(d: int)
    requires 1 <= d <= 31
    ensures DayField(Pad2(d)) == Some(d)
  {
    assert 10 * (d / 10) + d % 10 == d;
  }

  /** A zero-padded two-digit number is two digits that spell it. */
  lemma Pad2Digits(n: int)
    requires 0 <= n <= 99
    ensures var p := Pad2(n);
            IsDigit(p[0]) && IsDigit(p[1]) && 10 * DigitValue(p[0]) + DigitValue(p[1]) == n
  {
  }

  /** A zero-padded year is four digits that spell it. */
  lemma YearOfPad4(y: int)
    requires 0 <= y <= 9999
    ensures var p := Pad4(y);
            && IsDigit(p[0]) && IsDigit(p[1]) && IsDigit(p[2]) && IsDigit(p[3])
            && 1000 * DigitValue(p[0]) + 100 * DigitValue(p[1])
               + 10 * DigitValue(p[2]) + DigitValue(p[3]) == y
  {
    var p := Pad4(y);
    Pad2Digits(y / 100);
    Pad2Digits(y % 100);
    assert p[0] == Pad2(y / 100)[0] && p[1] == Pad2(y / 100)[1];
    assert p[2] == Pad2(y % 100)[0] && p[3] == Pad2(y % 100)[1];
  }

  /** `strptime` reads a zero-padded `YYYY-MM-DD` back as the date it spells when that
      is a real calendar date, and refuses it otherwise (February 30, year 0, ...). */
  lemma IsoRoundTrip(d: Date)
    requires IsFormattable(d)
    ensures ParseDate(FormatIso(d)) == if IsCalendarDate(d) then Some(d) else None
  {
    var s := FormatIso(d);
    var p := Pad4(d.year);
    YearOfPad4(d.year);
    assert s[0] == p[0] && s[1] == p[1] && s[2] == p[2] && s[3] == p[3];
    assert s[5..] == Pad2(d.month) + "-" + Pad2(d.day);
    MonthOfPad2(d.month, Pad2(d.day));
    DayOfPad2(d.day);
  }

  /** Chronological order: by year, then month, then day. */
  predicate DateLe(a: Date, b: Date) {
    || a.year < b.year
    || (a.year == b.year && (a.month < b.month || (a.month == b.month && a.day <= b.day)))
  }

  /** Two-digit numbers compare as their zero-padded texts do. */
  lemma Pad2Order(n: int, m: int)
    requires 0 <= n <= 99 && 0 <= m <= 99
    ensures Pad2(n) == Pad2(m) <==> n == m
    ensures Text.LexLe(Pad2(n), Pad2(m)) <==> n <= m
  {
    var a, b := Pad2(n), Pad2(m);
    assert a == [a[0]] + [a[1]] && b == [b[0]] + [b[1]];
    Text.LexLeAppend([a[0]], [b[0]], [a[1]], [b[1]]);
    assert Text.LexLe([a[0]], [b[0]]) <==> a[0] <= b[0] by {
      assert [a[0]][1..] == [] && [b[0]][1..] == [];
    }
    assert Text.LexLe([a[1]], [b[1]]) <==> a[1] <= b[1] by {
      assert [a[1]][1..] == [] && [b[1]][1..] == [];
    }
    assert n == 10 * (n / 10) + n % 10 && m == 10 * (m / 10) + m % 10;
  }

  /** Four-digit numbers compare as their zero-padded texts do. */
  lemma Pad4Order(n: int, m: int)
    requires 0 <= n <= 9999 && 0 <= m <= 9999
    ensures Pad4(n) == Pad4(m) <==> n == m
    ensures Text.LexLe(Pad4(n), Pad4(m)) <==> n <= m
  {
    Pad2Order(n / 100, m / 100);
    Pad2Order(n % 100, m % 100);
    Text.LexLeAppend(Pad2(n / 100), Pad2(m / 100), Pad2(n % 100), Pad2(m % 100));
    var a, b := Pad2(n / 100) + Pad2(n % 100), Pad2(m / 100) + Pad2(m % 100);
    assert a == b <==> Pad2(n / 100) == Pad2(m / 100) && Pad2(n % 100) == Pad2(m % 100) by {
      if a == b {
        assert a[..2] == Pad2(n / 100) && b[..2] == Pad2(m / 100);
        assert a[2..] == Pad2(n % 100) && b[2..] == Pad2(m % 100);
      }
    }
    assert n == 100 * (n / 100) + n % 100 && m == 100 * (m / 100) + m % 100;
  }

  /** On zero-padded `YYYY-MM-DD` texts, string order is chronological order, and equal
      texts are equal dates. */
  lemma IsoOrderIsChronological(a: Date, b: Date)
    requires IsFormattable(a) && IsFormattable(b)
    ensures FormatIso(a) == FormatIso(b) <==> a == b
    ensures Text.LexLe(FormatIso(a), FormatIso(b)) <==> DateLe(a, b)
  {
    var ya, yb := Pad4(a.year), Pad4(b.year);
    var ma, mb := Pad2(a.month), Pad2(b.month);
    var da, db := Pad2(a.day), Pad2(b.day);
    Pad4Order(a.year, b.year);
    Pad2Order(a.month, b.month);
    Pad2Order(a.day, b.day);
    var ta, tb := ma + ("-" + da), mb + ("-" + db);
    assert FormatIso(a) == ya + ("-" + ta) && FormatIso(b) == yb + ("-" + tb);
    Text.LexLeAppend(ya, yb, "-" + ta, "-" + tb);
    Text.LexLeAppend("-", "-", ta, tb);
    Text.LexLeAppend(ma, mb, "-" + da, "-" + db);
    Text.LexLeAppend("-", "-", da, db);
    assert FormatIso(a) == FormatIso(b) ==> a == b by {
      if FormatIso(a) == FormatIso(b) {
        assert FormatIso(a)[..4] == ya && FormatIso(b)[..4] == yb;
        assert FormatIso(a)[5..7] == ma && FormatIso(b)[5..7] == mb;
        assert FormatIso(a)[8..] == da && FormatIso(b)[8..] == db;
      }
    }
  }

  lemma OctoberParses()
    ensures ParseDate("2024-10-01") == Some(Date(2024, 10, 1))
  {
    assert "2024-10-01"[5..] == "10-01";
    assert MonthField("10-01") == Some((10, "01"));
  }

  /** A month without its leading zero is read too. */
  lemma UnpaddedSeptemberParses()
    ensures ParseDate("2024-9-01") == Some(Date(2024, 9, 1))
  {
    assert "2024-9-01"[5..] == "9-01";
    assert MonthField("9-01") == Some((9, "01"));
  }
}

=== FILE: filtering.dfy ===
/** `TaskManager.filter_tasks`: start from all tasks and narrow the list once for each
    criterion that was supplied, in the order due date, priority, status.

    The model states the result once as a single pass that keeps the tasks meeting
    every supplied criterion, and proves the sequential narrowing equal to it. */
module Filtering {
  import opened Wrappers
  import opened Text
  import opened TaskModel

  /** One of the three comparisons `filter_tasks` can make. */
  datatype Criterion =
    | DueOn(date: string)       // `t.due_date == due_date`
    | PriorityIs(name: string)  // `t.priority.lower() == priority.lower()`
    | StatusIs(name: string)    // `t.status.lower() == status.lower()`

  /** The comparison for one task: exact text on the due date, case-insensitive text on
      priority and status. Neither side is stripped. */
  predicate Matches(t: Task, c: Criterion) {
    match c
    case DueOn(d) => t.dueDate == d
    case PriorityIs(p) => Lower(t.priority) == Lower(p)
    case StatusIs(s) => Lower(t.status) == Lower(s)
  }

  /** The task meets every criterion of `cs`. */
  predicate MatchesAll(t: Task, cs: seq<Criterion>) {
    forall i :: 0 <= i < |cs| ==> Matches(t, cs[i])
  }

  /** `[t for t in tasks if <criterion>]`: one narrowing is the single pass with that
      one criterion. */
  function Narrow(tasks: seq<Task>, c: Criterion): (r: seq<Task>)
    ensures |r| <= |tasks|
    ensures r == Keep(tasks, [c])
  {
    if tasks == [] then []
    else
      assert [c][0] == c;
      assert MatchesAll(tasks[0], [c]) <==> Matches(tasks[0], c);
      if Matches(tasks[0], c) then [tasks[0]] + Narrow(tasks[1..], c)
      else Narrow(tasks[1..], c)
  }

  /** The single-pass reference: the tasks that meet all of `cs`, in their order. It
      keeps each task meeting all the criteria as often as it occurs in the input, and
      no other task. */
  function Keep(tasks: seq<Task>, cs: seq<Criterion>): (r: seq<Task>)
    ensures |r| <= |tasks|
    ensures forall t :: multiset(r)[t] == if MatchesAll(t, cs) then multiset(tasks)[t] else 0
  {
    if tasks == [] then []
    else
      assert tasks == [tasks[0]] + tasks[1..];
      if MatchesAll(tasks[0], cs) then [tasks[0]] + Keep(tasks[1..], cs)
      else Keep(tasks[1..], cs)
  }

  /** The single pass distributes over concatenation: it never reorders tasks. */
  lemma {:induction false} KeepAppend(a: seq<Task>, b: seq<Task>, cs: seq<Criterion>)
    ensures Keep(a + b, cs) == Keep(a, cs) + Keep(b, cs)
  {
    if a == [] {
      assert a + b == b;
    } else {
      assert (a + b)[0] == a[0] && (a + b)[1..] == a[1..] + b;
      KeepAppend(a[1..], b, cs);
    }
  }

  /** Narrowing the single-pass result by one more criterion is the single pass with
      that criterion added. */
  lemma {:induction false} NarrowKeep(tasks: seq<Task>, cs: seq<Criterion>, c: Criterion)
    ensures Narrow(Keep(tasks, cs), c) == Keep(tasks, cs + [c])
  {
    if tasks != [] {
      NarrowKeep(tasks[1..], cs, c);
      var t := tasks[0];
      assert MatchesAll(t, cs + [c]) <==> MatchesAll(t, cs) && Matches(t, c) by {
        if MatchesAll(t, cs) && Matches(t, c) {
          forall i | 0 <= i < |cs + [c]| ensures Matches(t, (cs + [c])[i]) {
            if i < |cs| {
              assert (cs + [c])[i] == cs[i];
            }
          }
        }
        if MatchesAll(t, cs + [c]) {
          assert (cs + [c])[|cs|] == c;
          forall i | 0 <= i < |cs| ensures Matches(t, cs[i]) {
            assert (cs + [c])[i] == cs[i];
          }
        }
      }
    }
  }

  lemma {:induction false} KeepNone(tasks: seq<Task>)
    ensures Keep(tasks, []) == tasks
  {
    if tasks != [] {
      KeepNone(tasks[1..]);
      assert tasks == [tasks[0]] + tasks[1..];
    }
  }

  /** A criterion counts only when given a non-empty string (`if due_date:`). */
  predicate Supplied(o: Option<string>) {
    o.Some? && o.value != []
  }

  /** The criteria `filter_tasks` applies, in the order it applies them. */
  function Criteria(dueDate: Option<string>, priority: Option<string>, status: Option<string>)
    : (cs: seq<Criterion>)
    ensures Supplied(dueDate) ==> DueOn(dueDate.value) in cs
    ensures Supplied(priority) ==> PriorityIs(priority.value) in cs
    ensures Supplied(status) ==> StatusIs(status.value) in cs
    ensures forall c :: c in cs ==>
              || (Supplied(dueDate) && c == DueOn(dueDate.value))
              || (Supplied(priority) && c == PriorityIs(priority.value))
              || (Supplied(status) && c == StatusIs(status.value))
  {
    (if Supplied(dueDate) then [DueOn(dueDate.value)] else [])
    + (if Supplied(priority) then [PriorityIs(priority.value)] else [])
    + (if Supplied(status) then [StatusIs(status.value)] else [])
  }

  /** Narrows by each criterion of `cs` in turn, as the successive list
      comprehensions of `filter_tasks` do. */
  function NarrowEach(tasks: seq<Task>, cs: seq<Criterion>): (r: seq<Task>)
    ensures |r| <= |tasks|
    decreases |cs|
  {
    if cs == [] then tasks else NarrowEach(Narrow(tasks, cs[0]), cs[1..])
  }

  /** Narrowing the single pass for `pre` by each of `cs` in turn is the single pass for
      `pre + cs`: the order of the criteria does not matter to the result. */
  lemma {:induction false} NarrowEachKeep(tasks: seq<Task>, pre: seq<Criterion>, cs: seq<Criterion>)
    ensures NarrowEach(Keep(tasks, pre), cs) == Keep(tasks, pre + cs)
    decreases |cs|
  {
    if cs == [] {
      assert pre + cs == pre;
    } else {
      NarrowKeep(tasks, pre, cs[0]);
      NarrowEachKeep(tasks, pre + [cs[0]], cs[1..]);
      assert (pre + [cs[0]]) + cs[1..] == pre + cs;
    }
  }

  /** `filter_tasks(due_date, priority, status)` over `tasks` (`get_all_tasks()`): one
      narrowing per supplied criterion. It returns exactly the tasks meeting every
      supplied criterion, in their original order, and all of them when none is
      supplied. */
  function FilterTasks(tasks: seq<Task>, dueDate: Option<string>, priority: Option<string>,
                       status: Option<string>): (r: seq<Task>)
    ensures r == Keep(tasks, Criteria(dueDate, priority, status))
    ensures !Supplied(dueDate) && !Supplied(priority) && !Supplied(status) ==> r == tasks
  {
    KeepNone(tasks);
    NarrowEachKeep(tasks, [], Criteria(dueDate, priority, status));
    assert [] + Criteria(dueDate, priority, status) == Criteria(dueDate, priority, status);
    NarrowEach(tasks, Criteria(dueDate, priority, status))
  }

  /** Filtering returns exactly the tasks of the input that meet every supplied criterion,
      each as often as in the input. */
  lemma FilterContents(tasks: seq<Task>, dueDate: Option<string>, priority: Option<string>,
                       status: Option<string>, t: Task)
    ensures var r := FilterTasks(tasks, dueDate, priority, status);
            && (t in r <==> t in tasks && MatchesAll(t, Criteria(dueDate, priority, status)))
            && multiset(r)[t] == if MatchesAll(t, Criteria(dueDate, priority, status))
                                 then multiset(tasks)[t] else 0
  {
    var cs := Criteria(dueDate, priority, status);
    assert multiset(Keep(tasks, cs))[t] == if MatchesAll(t, cs) then multiset(tasks)[t] else 0;
  }

  /** A supplied priority criterion ignores letter case: filtering by "HIGH" and by
      "high" keep the same tasks. */
  lemma PriorityFilterIgnoresCase(tasks: seq<Task>, p: string)
    ensures Narrow(tasks, PriorityIs(p)) == Narrow(tasks, PriorityIs(Lower(p)))
  {
    LowerIdempotent(p);
    NarrowSame(tasks, PriorityIs(p), PriorityIs(Lower(p)));
  }

  /** Two criteria that accept the same tasks narrow alike. */
  lemma {:induction false} NarrowSame(tasks: seq<Task>, c: Criterion, d: Criterion)
    requires forall t :: Matches(t, c) <==> Matches(t, d)
    ensures Narrow(tasks, c) == Narrow(tasks, d)
  {
    if tasks != [] {
      NarrowSame(tasks[1..], c, d);
    }
  }
}

=== FILE: sorting.dfy ===
/** `TaskManager.sort_tasks`: a hand-written merge sort over one of three sort keys,
    optionally followed by reversing the whole sorted list.

    The model keeps the sort functional (`Merge`, `MergeSort`) and proves of it what a
    stable sort promises: the output is a permutation of the input, its keys are in
    order, and tasks whose keys tie keep their input order. The `while` loop of
    `merge` is modelled as well (`MergeLists`) and shown to compute `Merge`. */
module Sorting {
  import opened Wrappers
  import opened Text
  import opened TaskModel
  import Dates

  /** The key `get_sort_key` extracts, chosen by the `sort_by` string. */
  datatype SortKey = ByDueDate | ByPriority | ByCreatedAt

  /** `"priority"` and `"created_at"` select those keys; every other string, the
      default `"due_date"` included, sorts by due date. */
  function SortKeyNamed(sortBy: string): (k: SortKey)
    ensures k == ByPriority <==> sortBy == "priority"
    ensures k == ByCreatedAt <==> sortBy == "created_at"
  {
    if sortBy == "priority" then ByPriority
    else if sortBy == "created_at" then ByCreatedAt
    else ByDueDate
  }

  /** `priority_map.get(task.priority.lower(), 0)` with `priority_map` low 1, medium 2,
      high 3: any priority outside the three names ranks 0, below all of them. The
      lookup lower-cases but does not strip. */
  function PriorityRank(p: string): (n: int)
    ensures 0 <= n <= 3
    ensures n == 0 <==> !IsPriorityName(Lower(p))
    ensures Lower(p) == "low" ==> n == 1
    ensures Lower(p) == "medium" ==> n == 2
    ensures Lower(p) == "high" ==> n == 3
  {
    var l := Lower(p);
    if l == "low" then 1 else if l == "medium" then 2 else if l == "high" then 3 else 0
  }

  /** `get_sort_key(a) <= get_sort_key(b)`: string order on due dates, numeric order on
      priority ranks and on creation instants. */
  predicate KeyLe(k: SortKey, a: Task, b: Task) {
    match k
    case ByDueDate => LexLe(a.dueDate, b.dueDate)
    case ByPriority => PriorityRank(a.priority) <= PriorityRank(b.priority)
    case ByCreatedAt => a.createdAt <= b.createdAt
  }

  /** On the spellings the priority setter stores, the priority key puts Low first and
      High last: Low is `<=` every priority, every priority is `<=` High, and Medium is
      `<=` only Medium and High. A priority outside the three names comes before all. */
  lemma PriorityKeyOrder(a: Task, b: Task)
    requires IsCanonicalPriority(b.priority)
    ensures IsCanonicalPriority(a.priority) ==>
              (KeyLe(ByPriority, a, b) <==> a.priority == "Low" || b.priority == "High"
                                            || a.priority == b.priority)
    ensures !IsPriorityName(Lower(a.priority)) ==> KeyLe(ByPriority, a, b) && !KeyLe(ByPriority, b, a)
  {
    if IsCanonicalPriority(a.priority) {
      CanonicalRanks(a.priority);
    }
    CanonicalRanks(b.priority);
  }

  /** The ranks of the three stored spellings. */
  lemma CanonicalRanks(p: string)
    requires IsCanonicalPriority(p)
    ensures p == "Low" ==> PriorityRank(p) == 1
    ensures p == "Medium" ==> PriorityRank(p) == 2
    ensures p == "High" ==> PriorityRank(p) == 3
  {
    if p == "Low" {
      LowLowered();
    } else if p == "Medium" {
      MediumLowered();
    } else {
      HighLowered();
    }
  }

  lemma LowLowered()
    ensures Lower("Low") == "low"
  {
  }

  lemma MediumLowered()
    ensures Lower("Medium") == "medium"
  {
  }

  lemma HighLowered()
    ensures Lower("High") == "high"
  {
  }

  /** A comparison `le(a, b)` standing for `key(a) <= key(b)`. */
  type Order = (Task, Task) -> bool

  /** Every two tasks compare one way or the other, and the comparison chains. */
  ghost predicate IsTotalPreorder(le: Order) {
    && (forall a, b :: le(a, b) || le(b, a))
    && (forall a, b, c :: le(a, b) && le(b, c) ==> le(a, c))
  }

  /** The comparison `merge` makes for the chosen key. */
  function KeyOrder(k: SortKey): Order {
    (a, b) => KeyLe(k, a, b)
  }

  /** Each of the three keys is compared by a total preorder: string order on dates and
      integer order on ranks and instants. */
  lemma KeyOrderIsTotalPreorder(k: SortKey)
    ensures IsTotalPreorder(KeyOrder(k))
  {
    var le := KeyOrder(k);
    forall a, b ensures le(a, b) || le(b, a) {
      if k == ByDueDate {
        LexLeTotal(a.dueDate, b.dueDate);
      }
    }
    forall a, b, c | le(a, b) && le(b, c) ensures le(a, c) {
      if k == ByDueDate {
        LexLeTransitive(a.dueDate, b.dueDate, c.dueDate);
      }
    }
  }

  /** Every pair of tasks, in the order they stand, has its keys in order. */
  predicate Sorted(le: Order, s: seq<Task>) {
    forall i, j :: 0 <= i < j < |s| ==> le(s[i], s[j])
  }

  /** Every pair of tasks, in the order they stand, has its keys in reverse order. */
  predicate SortedDescending(le: Order, s: seq<Task>) {
    forall i, j :: 0 <= i < j < |s| ==> le(s[j], s[i])
  }

  // ---------------------------------------------------------------------------
  // merge and merge_sort
  // ---------------------------------------------------------------------------

  /** `merge(left, right)`: repeatedly takes the head of `left` when its key is `<=`
      the head of `right`'s, otherwise the head of `right`; then appends what is left. */
  function Merge(le: Order, left: seq<Task>, right: seq<Task>): (r: seq<Task>)
    ensures |r| == |left| + |right|
    decreases |left| + |right|
  {
    if left == [] then right
    else if right == [] then left
    else if le(left[0], right[0]) then [left[0]] + Merge(le, left[1..], right)
    else [right[0]] + Merge(le, left, right[1..])
  }

  /** One step of the merge takes the smaller head and merges the rest. */
  lemma MergeStep(le: Order, left: seq<Task>, right: seq<Task>)
    requires left != [] && right != []
    ensures le(left[0], right[0]) ==>
              Merge(le, left, right) == [left[0]] + Merge(le, left[1..], right)
    ensures !le(left[0], right[0]) ==>
              Merge(le, left, right) == [right[0]] + Merge(le, left, right[1..])
  {
  }

  /** A non-empty list's multiset is its head's plus its tail's. */
  lemma HeadTail(s: seq<Task>)
    requires s != []
    ensures multiset(s) == multiset{s[0]} + multiset(s[1..])
  {
    assert s == [s[0]] + s[1..];
  }

  /** Whatever the inputs, their merge holds exactly their tasks. */
  lemma {:induction false} MergePermutes(le: Order, left: seq<Task>, right: seq<Task>)
    ensures multiset(Merge(le, left, right)) == multiset(left) + multiset(right)
    decreases |left| + |right|
  {
    if left != [] && right != [] {
      MergeStep(le, left, right);
      if le(left[0], right[0]) {
        MergePermutes(le, left[1..], right);
        HeadTail(left);
        HeadTail(Merge(le, left, right));
      } else {
        MergePermutes(le, left, right[1..]);
        HeadTail(right);
        HeadTail(Merge(le, left, right));
      }
    }
  }

  /** `merge_sort(arr)`: split at `len(arr) // 2`, sort both halves, merge them. The
      result holds exactly the input's tasks. */
  function MergeSort(le: Order, s: seq<Task>): (r: seq<Task>)
    ensures |r| == |s|
    ensures multiset(r) == multiset(s)
    decreases |s|
  {
    if |s| <= 1 then s
    else
      var mid := |s| / 2;
      assert s == s[..mid] + s[mid..];
      MergePermutes(le, MergeSort(le, s[..mid]), MergeSort(le, s[mid..]));
      Merge(le, MergeSort(le, s[..mid]), MergeSort(le, s[mid..]))
  }

  /** The `while` loop of `merge`, with its two indices, followed by the two `extend`
      calls. It computes `Merge`. */
  method MergeLists(le: Order, left: seq<Task>, right: seq<Task>) returns (result: seq<Task>)
    ensures result == Merge(le, left, right)
  {
    result := [];
    var i, j := 0, 0;
    assert left[i..] == left && right[j..] == right;
    while i < |left| && j < |right|
      invariant 0 <= i <= |left| && 0 <= j <= |right|
      invariant result + Merge(le, left[i..], right[j..]) == Merge(le, left, right)
      decreases |left| - i + |right| - j
    {
      if le(left[i], right[j]) {
        assert left[i..][0] == left[i] && left[i..][1..] == left[i + 1..];
        var rest := Merge(le, left[i + 1..], right[j..]);
        assert Merge(le, left[i..], right[j..]) == [left[i]] + rest;
        assert (result + [left[i]]) + rest == result + ([left[i]] + rest);
        result := result + [left[i]];
        i := i + 1;
      } else {
        assert right[j..][0] == right[j] && right[j..][1..] == right[j + 1..];
        var rest := Merge(le, left[i..], right[j + 1..]);
        assert Merge(le, left[i..], right[j..]) == [right[j]] + rest;
        assert (result + [right[j]]) + rest == result + ([right[j]] + rest);
        result := result + [right[j]];
        j := j + 1;
      }
    }
    if i == |left| {
      assert Merge(le, left[i..], right[j..]) == right[j..];
      assert left[i..] == [];
    } else {
      assert Merge(le, left[i..], right[j..]) == left[i..];
      assert right[j..] == [];
    }
    result := result + left[i..];
    result := result + right[j..];
  }

  /** The recursion of `merge_sort`, using the loop above for each merge. */
  method MergeSortList(le: Order, arr: seq<Task>) returns (sorted: seq<Task>)
    ensures sorted == MergeSort(le, arr)
    decreases |arr|
  {
    if |arr| <= 1 {
      return arr;
    }
    var mid := |arr| / 2;
    var left := MergeSortList(le, arr[..mid]);
    var right := MergeSortList(le, arr[mid..]);
    sorted := MergeLists(le, left, right);
  }

  // ---------------------------------------------------------------------------
  // Sortedness
  // ---------------------------------------------------------------------------

  /** `x` has a key `<=` that of every task in `s`. */
  predicate LowerBound(le: Order, x: Task, s: seq<Task>) {
    forall y :: y in s ==> le(x, y)
  }

  /** The head of a sorted, non-empty sequence is a lower bound of all of it. */
  lemma SortedHeadIsLowerBound(le: Order, s: seq<Task>)
    requires IsTotalPreorder(le)
    requires Sorted(le, s) && s != []
    ensures LowerBound(le, s[0], s)
  {
    forall y | y in s ensures le(s[0], y) {
      var j :| 0 <= j < |s| && s[j] == y;
    }
  }

  /** A task in front of a sorted sequence it bounds from below gives a sorted sequence. */
  lemma SortedCons(le: Order, x: Task, s: seq<Task>)
    requires LowerBound(le, x, s) && Sorted(le, s)
    ensures Sorted(le, [x] + s)
  {
    var r := [x] + s;
    forall i, j | 0 <= i < j < |r| ensures le(r[i], r[j]) {
      if i == 0 {
        assert r[j] == s[j - 1];
        assert r[j] in s;
      } else {
        assert r[i] == s[i - 1] && r[j] == s[j - 1];
      }
    }
  }

  /** A lower bound of two sequences is a lower bound of their merge. */
  lemma MergeLowerBound(le: Order, x: Task, left: seq<Task>, right: seq<Task>)
    requires LowerBound(le, x, left) && LowerBound(le, x, right)
    ensures LowerBound(le, x, Merge(le, left, right))
  {
    var m := Merge(le, left, right);
    MergePermutes(le, left, right);
    forall y | y in m ensures le(x, y) {
      assert y in multiset(m);
      assert y in multiset(left) || y in multiset(right);
    }
  }

  /** Merging two sorted sequences gives a sorted sequence. */
  lemma {:induction false} MergeSorted(le: Order, left: seq<Task>, right: seq<Task>)
    requires IsTotalPreorder(le)
    requires Sorted(le, left) && Sorted(le, right)
    ensures Sorted(le, Merge(le, left, right))
    decreases |left| + |right|
  {
    if left != [] && right != [] {
      SortedHeadIsLowerBound(le, left);
      SortedHeadIsLowerBound(le, right);
      if le(left[0], right[0]) {
        MergeSorted(le, left[1..], right);
        assert forall y :: y in right ==> le(left[0], y);
        MergeLowerBound(le, left[0], left[1..], right);
        SortedCons(le, left[0], Merge(le, left[1..], right));
      } else {
        MergeSorted(le, left, right[1..]);
        assert forall y :: y in left ==> le(right[0], y);
        MergeLowerBound(le, right[0], left, right[1..]);
        SortedCons(le, right[0], Merge(le, left, right[1..]));
      }
    }
  }

  /** `merge_sort` returns its input's tasks with their keys in order. */
  lemma {:induction false} MergeSortSorted(le: Order, s: seq<Task>)
    requires IsTotalPreorder(le)
    ensures Sorted(le, MergeSort(le, s))
    decreases |s|
  {
    if |s| > 1 {
      var mid := |s| / 2;
      MergeSortSorted(le, s[..mid]);
      MergeSortSorted(le, s[mid..]);
      MergeSorted(le, MergeSort(le, s[..mid]), MergeSort(le, s[mid..]));
    }
  }

  // ---------------------------------------------------------------------------
  // Stability
  // ---------------------------------------------------------------------------

  /** The keys of `a` and `b` tie. */
  predicate SameKey(le: Order, a: Task, b: Task) {
    le(a, b) && le(b, a)
  }

  /** The tasks of `s` whose key ties with that of `x`, in their order in `s`. */
  function Ties(le: Order, s: seq<Task>, x: Task): (r: seq<Task>)
    ensures |r| <= |s|
  {
    if s == [] then []
    else if SameKey(le, s[0], x) then [s[0]] + Ties(le, s[1..], x)
    else Ties(le, s[1..], x)
  }

  lemma {:induction false} TiesAppend(le: Order, a: seq<Task>, b: seq<Task>, x: Task)
    ensures Ties(le, a + b, x) == Ties(le, a, x) + Ties(le, b, x)
  {
    if a == [] {
      assert a + b == b;
    } else {
      assert (a + b)[0] == a[0] && (a + b)[1..] == a[1..] + b;
      TiesAppend(le, a[1..], b, x);
    }
  }

  lemma {:induction false} TiesNone(le: Order, s: seq<Task>, x: Task)
    requires forall y :: y in s ==> !SameKey(le, y, x)
    ensures Ties(le, s, x) == []
  {
    if s != [] {
      assert s[0] in s;
      TiesNone(le, s[1..], x);
    }
  }

  /** Merging two sorted sequences keeps, for every key, the tasks of `left` with that
      key before those of `right`, each group in its own order: `merge` takes from the
      left on a tie. */
  lemma {:induction false} MergeStable(le: Order, left: seq<Task>, right: seq<Task>, x: Task)
    requires IsTotalPreorder(le)
    requires Sorted(le, left) && Sorted(le, right)
    ensures Ties(le, Merge(le, left, right), x) == Ties(le, left, x) + Ties(le, right, x)
    decreases |left| + |right|
  {
    if left != [] && right != [] {
      if le(left[0], right[0]) {
        MergeStable(le, left[1..], right, x);
        assert Merge(le, left, right) == [left[0]] + Merge(le, left[1..], right);
        TiesAppend(le, [left[0]], Merge(le, left[1..], right), x);
        TiesAppend(le, [left[0]], left[1..], x);
        assert [left[0]] + left[1..] == left;
      } else {
        MergeStable(le, left, right[1..], x);
        assert Merge(le, left, right) == [right[0]] + Merge(le, left, right[1..]);
        TiesAppend(le, [right[0]], Merge(le, left, right[1..]), x);
        TiesAppend(le, [right[0]], right[1..], x);
        assert [right[0]] + right[1..] == right;
        if SameKey(le, right[0], x) {
          NoTiesAboveStrict(le, left, right[0], x);
        } else {
          assert Ties(le, [right[0]], x) == [];
        }
      }
    }
  }

  /** When `y`'s key is strictly below the head of a sorted sequence, no task of that
      sequence ties with a task whose key ties with `y`'s. */
  lemma NoTiesAboveStrict(le: Order, s: seq<Task>, y: Task, x: Task)
    requires IsTotalPreorder(le)
    requires Sorted(le, s) && s != [] && !le(s[0], y) && SameKey(le, y, x)
    ensures Ties(le, s, x) == []
  {
    SortedHeadIsLowerBound(le, s);
    assert forall z :: z in s ==> !SameKey(le, z, x);
    TiesNone(le, s, x);
  }

  /** `merge_sort` is stable: for every key, the tasks with that key come out in the
      order they went in. */
  lemma {:induction false} MergeSortStable(le: Order, s: seq<Task>, x: Task)
    requires IsTotalPreorder(le)
    ensures Ties(le, MergeSort(le, s), x) == Ties(le, s, x)
    decreases |s|
  {
    if |s| > 1 {
      var mid := |s| / 2;
      var a, b := s[..mid], s[mid..];
      calc {
        Ties(le, MergeSort(le, s), x);
        { MergeSortStep(le, s, x); }
        Ties(le, MergeSort(le, a), x) + Ties(le, MergeSort(le, b), x);
        { MergeSortStable(le, a, x); MergeSortStable(le, b, x); }
        Ties(le, a, x) + Ties(le, b, x);
        { TiesAppend(le, a, b, x); assert a + b == s; }
        Ties(le, s, x);
      }
    }
  }

  /** One level of `merge_sort`: the ties of the result are those of the sorted left
      half followed by those of the sorted right half. */
  lemma MergeSortStep(le: Order, s: seq<Task>, x: Task)
    requires IsTotalPreorder(le)
    requires |s| > 1
    ensures var mid := |s| / 2;
            Ties(le, MergeSort(le, s), x)
              == Ties(le, MergeSort(le, s[..mid]), x) + Ties(le, MergeSort(le, s[mid..]), x)
  {
    var mid := |s| / 2;
    MergeSortSorted(le, s[..mid]);
    MergeSortSorted(le, s[mid..]);
    MergeStable(le, MergeSort(le, s[..mid]), MergeSort(le, s[mid..]), x);
  }

  // ---------------------------------------------------------------------------
  // Reversal and sort_tasks
  // ---------------------------------------------------------------------------

  /** `s[::-1]` */
  function Reverse<T>(s: seq<T>): (r: seq<T>)
    ensures |r| == |s|
    ensures forall i :: 0 <= i < |s| ==> r[i] == s[|s| - 1 - i]
    ensures multiset(r) == multiset(s)
  {
    if s == [] then []
    else
      assert s == [s[0]] + s[1..];
      Reverse(s[1..]) + [s[0]]
  }

  /** Reversing a sorted sequence puts its keys in descending order. */
  lemma ReverseSorted(le: Order, s: seq<Task>)
    requires Sorted(le, s)
    ensures SortedDescending(le, Reverse(s))
  {
    var r := Reverse(s);
    forall i, j | 0 <= i < j < |r| ensures le(r[j], r[i]) {
      assert r[j] == s[|s| - 1 - j] && r[i] == s[|s| - 1 - i];
    }
  }

  /** Reversal reverses the order of every group of tied tasks. */
  lemma {:induction false} TiesReverse(le: Order, s: seq<Task>, x: Task)
    ensures Ties(le, Reverse(s), x) == Reverse(Ties(le, s, x))
  {
    if s != [] {
      TiesReverse(le, s[1..], x);
      TiesAppend(le, Reverse(s[1..]), [s[0]], x);
      if SameKey(le, s[0], x) {
        assert Ties(le, s, x) == [s[0]] + Ties(le, s[1..], x);
        ReverseCons(s[0], Ties(le, s[1..], x));
      } else {
        assert Ties(le, [s[0]], x) == [];
      }
    }
  }

  lemma ReverseCons<T>(x: T, s: seq<T>)
    ensures Reverse([x] + s) == Reverse(s) + [x]
  {
    assert ([x] + s)[1..] == s;
  }

  /** `sort_tasks(tasks, sort_by, reverse)`: a list of at most one task is returned as
      is; otherwise the merge-sorted list, reversed when `reverse` is set. The result
      is a permutation of the input whose keys ascend, or descend when `reverse` is set. */
  function SortTasks(tasks: seq<Task>, sortBy: string, reverse: bool): (r: seq<Task>)
    ensures multiset(r) == multiset(tasks)
    ensures |tasks| <= 1 ==> r == tasks
    ensures !reverse ==> Sorted(KeyOrder(SortKeyNamed(sortBy)), r)
    ensures reverse ==> SortedDescending(KeyOrder(SortKeyNamed(sortBy)), r)
  {
    var le := KeyOrder(SortKeyNamed(sortBy));
    KeyOrderIsTotalPreorder(SortKeyNamed(sortBy));
    if |tasks| <= 1 then tasks
    else
      MergeSortSorted(le, tasks);
      var sorted := MergeSort(le, tasks);
      if reverse then
        ReverseSorted(le, sorted);
        Reverse(sorted)
      else sorted
  }

  /** Ascending, tied tasks keep their input order; descending, their order is inverted
      along with everything else. */
  lemma SortTasksStable(tasks: seq<Task>, sortBy: string, reverse: bool, x: Task)
    ensures var le := KeyOrder(SortKeyNamed(sortBy));
            Ties(le, SortTasks(tasks, sortBy, reverse), x)
              == if reverse then Reverse(Ties(le, tasks, x)) else Ties(le, tasks, x)
  {
    var le := KeyOrder(SortKeyNamed(sortBy));
    KeyOrderIsTotalPreorder(SortKeyNamed(sortBy));
    if |tasks| <= 1 {
      if reverse {
        var t := Ties(le, tasks, x);
        assert Reverse(t) == t;
      }
    } else {
      MergeSortStable(le, tasks, x);
      if reverse {
        TiesReverse(le, MergeSort(le, tasks), x);
      }
    }
  }

  /** A descending sort is exactly the ascending sort read backwards. */
  lemma DescendingIsReversedAscending(tasks: seq<Task>, sortBy: string)
    ensures SortTasks(tasks, sortBy, true) == Reverse(SortTasks(tasks, sortBy, false))
  {
    if |tasks| <= 1 {
      assert Reverse(tasks) == tasks;
    }
  }

  /** Sorting by due date compares the stored text. When both due dates are written
      zero-padded, as `YYYY-MM-DD`, that is chronological order. */
  lemma DueDateOrderOnIsoDates(a: Task, b: Task, da: Dates.Date, db: Dates.Date)
    requires Dates.IsFormattable(da) && Dates.IsFormattable(db)
    requires a.dueDate == Dates.FormatIso(da) && b.dueDate == Dates.FormatIso(db)
    ensures KeyLe(ByDueDate, a, b) <==> Dates.DateLe(da, db)
  {
    Dates.IsoOrderIsChronological(da, db);
  }

  /** The setter also accepts a month without its leading zero, and then text order is
      not date order: 2024-10-01 sorts before 2024-9-01. */
  lemma UnpaddedDueDatesMisordered(a: Task, b: Task)
    requires a.dueDate == "2024-10-01" && b.dueDate == "2024-9-01"
    ensures Dates.ParseDate(a.dueDate) == Some(Dates.Date(2024, 10, 1))
    ensures Dates.ParseDate(b.dueDate) == Some(Dates.Date(2024, 9, 1))
    ensures KeyLe(ByDueDate, a, b) && !KeyLe(ByDueDate, b, a)
    ensures !Dates.DateLe(Dates.Date(2024, 10, 1), Dates.Date(2024, 9, 1))
  {
    Dates.OctoberParses();
    Dates.UnpaddedSeptemberParses();
    TextOrderAtSixthChar(a.dueDate, b.dueDate);
  }

  /** Two texts that agree on their first five characters and differ at the sixth are
      ordered by that character. */
  lemma TextOrderAtSixthChar(x: string, y: string)
    requires |x| > 5 && |y| > 5 && x[..5] == y[..5] && x[5] < y[5]
    ensures LexLe(x, y) && !LexLe(y, x)
  {
    LexLeAppend(x[..5], y[..5], x[5..], y[5..]);
    LexLeAppend(y[..5], x[..5], y[5..], x[5..]);
    assert x == x[..5] + x[5..] && y == y[..5] + y[5..];
  }
}

=== FILE: store.dfy ===
/** `TaskManager`: the in-memory cache of tasks, loaded once from the database and kept
    in step with it by add, update, mark-completed and delete.

    The database (database.py) is not part of this model. Each call into it becomes a
    parameter carrying its answer: `fetch_all_tasks()` gives the rows, or `None` when it
    raised; `insert_task` gives the new id, or `None` when it raised or returned
    nothing; `update_task` and `delete_task` give their success flag, `false` also
    standing for an exception. Every operation is a function from the cache before
    and the database's answer to the cache after and the value returned. */
module Store {
  import opened Wrappers
  import opened Text
  import opened TaskModel
  import opened OrderedCache
  import Filtering
  import Validators

  /** The invariant the cache starts with: it lists each key once, each task is stored
      under its own id, and each task has the normalised shape the constructor gives. */
  predicate Consistent(c: Cache) {
    && Valid(c)
    && (forall k :: k in c.entries ==> c.entries[k].id == Some(k) && IsNormalized(c.entries[k]))
  }

  // ---------------------------------------------------------------------------
  // Loading
  // ---------------------------------------------------------------------------

  /** One row of `fetch_all_tasks()`: the table's columns. */
  datatype Row = Row(
    taskId: int,
    title: string,
    description: string,
    dueDate: string,
    priority: string,
    status: string,
    createdAt: Option<Timestamp>)

  /** `Task(title=..., ..., task_id=row['task_id'], created_at=row['created_at'])`. */
  function FromRow(row: Row, now: Timestamp): (r: Result<Task, TaskError>)
    ensures r.Ok? <==> Buildable(row)
    ensures r.Ok? ==> r.value.id == Some(row.taskId) && IsNormalized(r.value)
  {
    NewTask(row.title, row.description, row.dueDate, row.priority, row.status,
            Some(row.taskId), row.createdAt, now)
  }

  /** The constructor call of the load loop, as a function of the row. */
  function Loader(now: Timestamp): Row -> Result<Task, TaskError> {
    row => FromRow(row, now)
  }

  /** The constructor accepts the row: none of its five text columns is blank. */
  predicate Buildable(row: Row) {
    && !IsBlank(row.title) && !IsBlank(row.description) && !IsBlank(row.dueDate)
    && !IsBlank(row.priority) && !IsBlank(row.status)
  }

  /** How many rows, from the first, build a task: the loop stops at the first row whose
      constructor raises, because the `try` encloses the whole loop. */
  function LoadablePrefix(rows: seq<Row>): (n: nat)
    ensures n <= |rows|
    ensures forall i :: 0 <= i < n ==> Buildable(rows[i])
    ensures n < |rows| ==> !Buildable(rows[n])
  {
    if rows == [] || !Buildable(rows[0]) then 0
    else 1 + LoadablePrefix(rows[1..])
  }

  /** The loop's work list: while `make` succeeds, each row's task with the row's id;
      it stops at the first row `make` refuses. */
  function Build(rows: seq<Row>, make: Row -> Result<Task, TaskError>): seq<(int, Task)>
  {
    if rows == [] || make(rows[0]).Err? then []
    else [(rows[0].taskId, make(rows[0]).value)] + Build(rows[1..], make)
  }

  /** What the work list holds: the task `make` gives for each row of a run at the front
      of `rows`, which ends at the first row `make` refuses. */
  lemma {:induction false} BuildFacts(rows: seq<Row>, make: Row -> Result<Task, TaskError>)
    ensures var built := Build(rows, make);
            && |built| <= |rows|
            && (forall i :: 0 <= i < |built| ==>
                  make(rows[i]).Ok? && built[i] == (rows[i].taskId, make(rows[i]).value))
            && (|built| < |rows| ==> make(rows[|built|]).Err?)
  {
    if rows != [] && make(rows[0]).Ok? {
      BuildFacts(rows[1..], make);
    }
  }

  /** The map after assigning each pair of `built` in turn. */
  function AssignAll(m: map<int, Task>, built: seq<(int, Task)>): map<int, Task>
    decreases |built|
  {
    if built == [] then m else AssignAll(m[built[0].0 := built[0].1], built[1..])
  }

  /** After the assignments, the keys are the old keys and the assigned ones, and each
      value is the old one or one assigned to that key. */
  lemma {:induction false} AssignAllEntries(m: map<int, Task>, built: seq<(int, Task)>)
    ensures forall k :: k in AssignAll(m, built) <==>
              k in m || exists i :: 0 <= i < |built| && built[i].0 == k
    ensures forall k :: k in AssignAll(m, built) ==>
              (k in m && AssignAll(m, built)[k] == m[k])
              || exists i :: 0 <= i < |built| && built[i] == (k, AssignAll(m, built)[k])
    decreases |built|
  {
    if built != [] {
      var (k0, t0) := built[0];
      var rest := built[1..];
      var m' := m[k0 := t0];
      var r := AssignAll(m, built);
      assert r == AssignAll(m', rest);
      AssignAllEntries(m', rest);
      assert forall i :: 0 <= i < |rest| ==> rest[i] == built[i + 1];
      forall k ensures k in r <==> k in m || exists i :: 0 <= i < |built| && built[i].0 == k {
        if k in r && k !in m && k != k0 {
          var i :| 0 <= i < |rest| && rest[i].0 == k;
          assert built[i + 1].0 == k;
        }
        if k in m || k == k0 {
          assert k in m';
        } else if exists i :: 0 <= i < |built| && built[i].0 == k {
          var i :| 0 <= i < |built| && built[i].0 == k;
          assert rest[i - 1].0 == k;
        }
      }
      forall k | k in r
        ensures (k in m && r[k] == m[k]) || exists i :: 0 <= i < |built| && built[i] == (k, r[k]) {
        if !(k in m' && r[k] == m'[k]) {
          var i :| 0 <= i < |rest| && rest[i] == (k, r[k]);
          assert built[i + 1] == (k, r[k]);
        } else if k == k0 {
          assert built[0] == (k, r[k]);
        }
      }
    }
  }

  /** `self.__tasks_cache[task.task_id] = task` for each built task in turn. */
  function PutAll(c: Cache, built: seq<(int, Task)>): (r: Cache)
    requires Valid(c)
    ensures Valid(r)
    ensures r.entries == AssignAll(c.entries, built)
    decreases |built|
  {
    if built == [] then c
    else PutAll(Put(c, built[0].0, built[0].1), built[1..])
  }

  /** The loop of `__load_tasks_from_db`: each row that builds a task is stored under its
      id, until the first row that does not. A later row with an id already loaded
      overwrites that entry where it stands. */
  function LoadRows(c: Cache, rows: seq<Row>, now: Timestamp): (r: Cache)
    requires Valid(c)
    ensures Valid(r)
    ensures forall k :: k in r.entries <==>
              k in c.entries || exists i :: 0 <= i < LoadablePrefix(rows) && rows[i].taskId == k
  {
    var built := Build(rows, Loader(now));
    BuildStopsAtFirstFailure(rows, now);
    AssignAllEntries(c.entries, built);
    var r := PutAll(c, built);
    r
  }

  /** The loop builds a task from each row of the buildable run at the front, and no
      more. */
  lemma BuildStopsAtFirstFailure(rows: seq<Row>, now: Timestamp)
    ensures var built := Build(rows, Loader(now));
            && |built| == LoadablePrefix(rows)
            && forall i :: 0 <= i < |built| ==> built[i].0 == rows[i].taskId
  {
    var built := Build(rows, Loader(now));
    BuildFacts(rows, Loader(now));
    PrefixUnique(rows, |built|);
  }

  /** The length of the run of buildable rows at the front is the only `n` with every
      row before it buildable and the row at it, if any, not. */
  lemma {:induction false} PrefixUnique(rows: seq<Row>, n: nat)
    requires n <= |rows|
    requires forall i :: 0 <= i < n ==> Buildable(rows[i])
    requires n < |rows| ==> !Buildable(rows[n])
    ensures n == LoadablePrefix(rows)
  {
    if n > 0 {
      PrefixUnique(rows[1..], n - 1);
    }
  }

  /** The task is stored under its own id and has the shape the constructor gives. */
  predicate OwnsKey(k: int, t: Task) {
    t.id == Some(k) && IsNormalized(t)
  }

  /** Every task the constructor builds from a row is shaped and carries the row's id. */
  lemma LoaderOwnsKeys(now: Timestamp)
    ensures forall row :: Loader(now)(row).Ok? ==> OwnsKey(row.taskId, Loader(now)(row).value)
  {
    forall row | Loader(now)(row).Ok? ensures OwnsKey(row.taskId, Loader(now)(row).value) {
      assert Loader(now)(row) == FromRow(row, now);
    }
  }

  /** When `make` only builds tasks shaped and carrying the row's id, each pair the load
      loop builds holds such a task under its own id. */
  lemma BuiltOwnKeys(rows: seq<Row>, make: Row -> Result<Task, TaskError>, built: seq<(int, Task)>)
    requires forall row :: make(row).Ok? ==> OwnsKey(row.taskId, make(row).value)
    requires built == Build(rows, make)
    ensures forall i :: 0 <= i < |built| ==> OwnsKey(built[i].0, built[i].1)
  {
    BuildFacts(rows, make);
  }

  /** Assigning pairs that hold tasks under their own ids keeps every entry so. */
  lemma {:induction false} AssignOwnKeys(m: map<int, Task>, built: seq<(int, Task)>)
    requires forall k :: k in m ==> m[k].id == Some(k) && IsNormalized(m[k])
    requires forall i :: 0 <= i < |built| ==> OwnsKey(built[i].0, built[i].1)
    ensures forall k :: k in AssignAll(m, built) ==>
              AssignAll(m, built)[k].id == Some(k) && IsNormalized(AssignAll(m, built)[k])
    decreases |built|
  {
    if built != [] {
      var m' := m[built[0].0 := built[0].1];
      assert OwnsKey(built[0].0, built[0].1);
      forall k | k in m' ensures m'[k].id == Some(k) && IsNormalized(m'[k]) {
        if k != built[0].0 {
          assert m'[k] == m[k];
        }
      }
      assert AssignAll(m, built) == AssignAll(m', built[1..]);
      AssignOwnKeys(m', built[1..]);
    }
  }

  /** Loading into a consistent cache leaves it consistent: each loaded task is stored
      under its own id and is normalised, as the constructor makes it. */
  lemma LoadKeepsConsistent(c: Cache, rows: seq<Row>, now: Timestamp)
    requires Consistent(c)
    ensures Consistent(LoadRows(c, rows, now))
  {
    var built := Build(rows, Loader(now));
    LoaderOwnsKeys(now);
    BuiltOwnKeys(rows, Loader(now), built);
    AssignOwnKeys(c.entries, built);
    var r := LoadRows(c, rows, now);
    assert r == PutAll(c, built);
  }

  /** No two rows carry the same id, as the table's primary key ensures. */
  predicate DistinctIds(rows: seq<Row>) {
    forall i, j :: 0 <= i < j < |rows| ==> rows[i].taskId != rows[j].taskId
  }

  /** Loading rows with distinct ids into an empty cache lists the ids of the loadable
      rows in row order, and stores under each the task built from its row. */
  lemma LoadDistinctRows(rows: seq<Row>, now: Timestamp)
    requires DistinctIds(rows)
    ensures var c := LoadRows(Empty(), rows, now);
            var n := LoadablePrefix(rows);
            && |c.keys| == n
            && forall i :: 0 <= i < n ==>
                 && c.keys[i] == rows[i].taskId
                 && c.entries[rows[i].taskId] == FromRow(rows[i], now).value
  {
    var built := Build(rows, Loader(now));
    BuildStopsAtFirstFailure(rows, now);
    PutBuiltDistinct(rows, Loader(now), built);
    assert LoadRows(Empty(), rows, now) == PutAll(Empty(), built);
    forall i | 0 <= i < |built| ensures Loader(now)(rows[i]) == FromRow(rows[i], now) {
    }
  }

  /** The work list of rows with distinct ids, stored into an empty cache: the rows' ids
      in row order, each with the task `make` built from its row. */
  lemma PutBuiltDistinct(rows: seq<Row>, make: Row -> Result<Task, TaskError>,
                         built: seq<(int, Task)>)
    requires DistinctIds(rows)
    requires built == Build(rows, make)
    ensures |built| <= |rows|
    ensures var c := PutAll(Empty(), built);
            && |c.keys| == |built|
            && forall i :: 0 <= i < |built| ==>
                 && c.keys[i] == rows[i].taskId
                 && make(rows[i]).Ok?
                 && c.entries[rows[i].taskId] == make(rows[i]).value
  {
    BuildFacts(rows, make);
    var ks := seq(|built|, i requires 0 <= i < |built| => rows[i].taskId);
    PutAllDistinct(built, ks);
  }

  /** Storing tasks under distinct keys into an empty cache lists the keys in order, each
      with its own task. */
  lemma PutAllDistinct(built: seq<(int, Task)>, ks: seq<int>)
    requires |ks| == |built| && forall i :: 0 <= i < |built| ==> built[i].0 == ks[i]
    requires forall i, j :: 0 <= i < j < |ks| ==> ks[i] != ks[j]
    ensures PutAll(Empty(), built).keys == ks
    ensures forall i :: 0 <= i < |ks| ==>
              ks[i] in PutAll(Empty(), built).entries
              && PutAll(Empty(), built).entries[ks[i]] == built[i].1
  {
    var c := PutAll(Empty(), built);
    assert c.keys == ks by {
      PutAllFresh(Empty(), built, ks);
      assert [] + ks == ks;
    }
    forall i | 0 <= i < |ks| ensures ks[i] in c.entries && c.entries[ks[i]] == built[i].1 {
      AssignAllDistinct(map[], built, i);
    }
  }

  /** A key that none of the pairs assigns keeps its value. */
  lemma {:induction false} AssignAllUntouched(m: map<int, Task>, built: seq<(int, Task)>, k: int)
    requires k in m
    requires forall j :: 0 <= j < |built| ==> built[j].0 != k
    ensures k in AssignAll(m, built) && AssignAll(m, built)[k] == m[k]
    decreases |built|
  {
    if built != [] {
      AssignAllUntouched(m[built[0].0 := built[0].1], built[1..], k);
    }
  }

  /** When the pairs' keys are distinct, each key ends up holding its own pair's value. */
  lemma {:induction false} AssignAllDistinct(m: map<int, Task>, built: seq<(int, Task)>, i: int)
    requires 0 <= i < |built|
    requires forall a, b :: 0 <= a < b < |built| ==> built[a].0 != built[b].0
    ensures built[i].0 in AssignAll(m, built) && AssignAll(m, built)[built[i].0] == built[i].1
    decreases |built|
  {
    var m' := m[built[0].0 := built[0].1];
    assert AssignAll(m, built) == AssignAll(m', built[1..]);
    if i == 0 {
      AssignAllUntouched(m', built[1..], built[0].0);
    } else {
      AssignAllDistinct(m', built[1..], i - 1);
    }
  }

  /** `TaskManager(db)`: an empty cache, then the load. When fetching raises, the cache
      stays empty. Whatever the rows, the loaded cache is consistent; when their ids are
      distinct, the cache lists the loadable rows' ids in row order, each with the task
      built from its row. */
  function Open(fetched: Option<seq<Row>>, now: Timestamp): (c: Cache)
    ensures Consistent(c)
    ensures fetched.None? ==> c == Empty()
    ensures fetched.Some? ==> forall k :: k in c.entries <==>
              exists i :: 0 <= i < LoadablePrefix(fetched.value) && fetched.value[i].taskId == k
    ensures fetched.Some? && DistinctIds(fetched.value) ==>
              && |c.keys| == LoadablePrefix(fetched.value)
              && forall i :: 0 <= i < LoadablePrefix(fetched.value) ==>
                   && c.keys[i] == fetched.value[i].taskId
                   && c.entries[fetched.value[i].taskId] == FromRow(fetched.value[i], now).value
  {
    match fetched
    case None => Empty()
    case Some(rows) =>
      LoadFromEmpty(rows, now);
      LoadRows(Empty(), rows, now)
  }

  /** What `Open` promises of a successful fetch, stated of the load itself. */
  lemma LoadFromEmpty(rows: seq<Row>, now: Timestamp)
    ensures var c := LoadRows(Empty(), rows, now);
            && Consistent(c)
            && (forall k :: k in c.entries <==>
                  exists i :: 0 <= i < LoadablePrefix(rows) && rows[i].taskId == k)
            && (DistinctIds(rows) ==>
                  && |c.keys| == LoadablePrefix(rows)
                  && forall i :: 0 <= i < LoadablePrefix(rows) ==>
                       && c.keys[i] == rows[i].taskId
                       && c.entries[rows[i].taskId] == FromRow(rows[i], now).value)
  {
    LoadKeepsConsistent(Empty(), rows, now);
    if DistinctIds(rows) {
      LoadDistinctRows(rows, now);
    }
  }

  // ---------------------------------------------------------------------------
  // Reloading what was stored
  // ---------------------------------------------------------------------------

  /** The row the database holds for a task it stored: the fields of `to_dict()`, with
      `created_at` present. */
  function StoredRow(t: Task): (row: Row)
    requires t.id.Some?
  {
    var d := ToDict(t);
    Row(d.taskId.value, d.title, d.description, d.dueDate, d.priority, d.status,
        Some(d.createdAt))
  }

  /** A task the constructor shaped comes back unchanged from its stored row: stripping
      stripped text and capitalising a capitalised word change nothing. */
  lemma RowRoundTrip(t: Task, now: Timestamp)
    requires t.id.Some? && IsNormalized(t)
    ensures FromRow(StoredRow(t), now) == Ok(t)
  {
    TrimStripped(t.title);
    TrimStripped(t.description);
    TrimStripped(t.dueDate);
    TrimStripped(t.priority);
    TrimStripped(t.status);
  }

  /** The rows for every cached task, in cache order. */
  function Dump(c: Cache): (rows: seq<Row>)
    requires Consistent(c)
    ensures |rows| == |c.keys|
    ensures forall i :: 0 <= i < |c.keys| ==>
              && c.keys[i] in c.entries && c.entries[c.keys[i]].id == Some(c.keys[i])
              && rows[i] == StoredRow(c.entries[c.keys[i]])
  {
    KeysHaveOwnIds(c);
    seq(|c.keys|, i requires 0 <= i < |c.keys| => StoredRow(c.entries[c.keys[i]]))
  }

  /** In a consistent cache, the task at each listed key carries that key as its id and
      is normalised. */
  lemma KeysHaveOwnIds(c: Cache)
    requires Consistent(c)
    ensures forall i :: 0 <= i < |c.keys| ==>
              && c.keys[i] in c.entries && c.entries[c.keys[i]].id == Some(c.keys[i])
              && IsNormalized(c.entries[c.keys[i]])
  {
    forall i | 0 <= i < |c.keys|
      ensures && c.keys[i] in c.entries && c.entries[c.keys[i]].id == Some(c.keys[i])
              && IsNormalized(c.entries[c.keys[i]]) {
      var k := c.keys[i];
      assert k in c.entries;
    }
  }

  /** Each key with its task, in cache order. */
  function Pairs(c: Cache): (ps: seq<(int, Task)>)
    requires Valid(c)
    ensures |ps| == |c.keys|
    ensures forall i :: 0 <= i < |c.keys| ==> ps[i] == (c.keys[i], c.entries[c.keys[i]])
  {
    seq(|c.keys|, i requires 0 <= i < |c.keys| => (c.keys[i], c.entries[c.keys[i]]))
  }

  /** When `make` accepts every row, the work list is every row's id with its task. */
  lemma {:induction false} BuildAll(rows: seq<Row>, make: Row -> Result<Task, TaskError>,
                                    ps: seq<(int, Task)>)
    requires |ps| == |rows|
    requires forall i :: 0 <= i < |rows| ==> make(rows[i]) == Ok(ps[i].1) && ps[i].0 == rows[i].taskId
    ensures Build(rows, make) == ps
  {
    if rows != [] {
      BuildAll(rows[1..], make, ps[1..]);
      assert ps == [ps[0]] + ps[1..];
    }
  }

  /** Every dumped row builds its task again. */
  lemma DumpedRowsBuild(c: Cache, now: Timestamp)
    requires Consistent(c)
    ensures forall i :: 0 <= i < |c.keys| ==>
              Loader(now)(Dump(c)[i]) == Ok(c.entries[c.keys[i]])
              && Dump(c)[i].taskId == c.keys[i]
  {
    KeysHaveOwnIds(c);
    forall i | 0 <= i < |c.keys|
      ensures Loader(now)(Dump(c)[i]) == Ok(c.entries[c.keys[i]]) && Dump(c)[i].taskId == c.keys[i] {
      RowRoundTrip(c.entries[c.keys[i]], now);
    }
  }

  /** The load loop never stops early on dumped rows, and builds each key's task. */
  lemma BuildOfDump(c: Cache, now: Timestamp)
    requires Consistent(c)
    ensures Build(Dump(c), Loader(now)) == Pairs(c)
  {
    DumpedRowsBuild(c, now);
    BuildAll(Dump(c), Loader(now), Pairs(c));
  }

  /** Storing tasks under keys not yet present, and distinct from each other, appends the
      keys in their order. */
  lemma {:induction false} PutAllFresh(c: Cache, built: seq<(int, Task)>, ks: seq<int>)
    requires Valid(c)
    requires |ks| == |built| && forall i :: 0 <= i < |built| ==> built[i].0 == ks[i]
    requires forall i :: 0 <= i < |ks| ==> ks[i] !in c.entries
    requires forall i, j :: 0 <= i < j < |ks| ==> ks[i] != ks[j]
    ensures PutAll(c, built).keys == c.keys + ks
    decreases |built|
  {
    if built == [] {
      assert c.keys + ks == c.keys;
    } else {
      var c' := Put(c, built[0].0, built[0].1);
      assert c'.keys == c.keys + [ks[0]];
      forall i | 1 <= i < |ks| ensures ks[i] !in c'.entries {
        assert ks[0] != ks[i];
      }
      PutAllFresh(c', built[1..], ks[1..]);
      assert c.keys + ks == c.keys + [ks[0]] + ks[1..];
    }
  }

  /** Assigning a valid cache's pairs, in order, to an empty map gives its entries. */
  lemma PairsAssigned(c: Cache)
    requires Valid(c)
    ensures AssignAll(map[], Pairs(c)) == c.entries
  {
    var built := Pairs(c);
    var m := AssignAll(map[], built);
    AssignAllEntries(map[], built);
    forall k | k in m ensures k in c.entries && m[k] == c.entries[k] {
      var i :| 0 <= i < |built| && built[i] == (k, m[k]);
      assert c.keys[i] == k;
    }
    forall k | k in c.entries ensures k in m {
      var i :| 0 <= i < |c.keys| && c.keys[i] == k;
      assert built[i].0 == k;
    }
  }

  /** Storing a valid cache's pairs, in order, into an empty cache rebuilds it. */
  lemma PutAllPairs(c: Cache)
    requires Valid(c)
    ensures PutAll(Empty(), Pairs(c)) == c
  {
    PutAllFresh(Empty(), Pairs(c), c.keys);
    PairsAssigned(c);
  }

  /** Loading the rows dumped from a consistent cache rebuilds the very same cache: the
      same tasks, under the same keys, in the same order. */
  lemma ReloadRoundTrip(c: Cache, now: Timestamp)
    requires Consistent(c)
    ensures Open(Some(Dump(c)), now) == c
  {
    BuildOfDump(c, now);
    PutAllPairs(c);
  }

  // ---------------------------------------------------------------------------
  // Reading
  // ---------------------------------------------------------------------------

  /** `get_task(task_id)`: the cached task, or `None`. */
  function GetTask(c: Cache, id: int): (r: Option<Task>)
    ensures r.Some? <==> id in c.entries
    ensures r.Some? ==> r.value == c.entries[id]
  {
    Get(c, id)
  }

  /** `get_all_tasks()`: every cached task, in the order their ids were first stored. */
  function AllTasks(c: Cache): (r: seq<Task>)
    requires Valid(c)
    ensures |r| == |c.keys| == |c.entries|
    ensures forall i :: 0 <= i < |c.keys| ==> r[i] == c.entries[c.keys[i]]
    ensures forall t :: t in r <==> exists k :: k in c.entries && c.entries[k] == t
  {
    ValuesAreEntries(c);
    KeysCount(c);
    Values(c)
  }

  /** A valid cache has as many keys in its order as in its map. */
  lemma KeysCount(c: Cache)
    requires Valid(c)
    ensures |c.keys| == |c.entries|
  {
    KeysAreEntries(c);
    DistinctCount(c.keys);
    assert c.entries.Keys == set k | k in c.keys by {
      forall k ensures k in c.entries.Keys <==> k in set k | k in c.keys {
      }
    }
  }

  lemma {:induction false} DistinctCount(s: seq<int>)
    requires forall i, j :: 0 <= i < j < |s| ==> s[i] != s[j]
    ensures |set k | k in s| == |s|
  {
    if s != [] {
      DistinctCount(s[1..]);
      var rest := set k | k in s[1..];
      assert (set k | k in s) == rest + {s[0]};
      assert s[0] !in rest by {
        forall j | 1 <= j < |s| ensures s[j] != s[0] {
          assert s[0] != s[j];
        }
      }
    }
  }

  /** `filter_tasks(due_date, priority, status)`: the cached tasks meeting every supplied
      criterion, in cache order: the single pass over `get_all_tasks()`. */
  function FilterTasks(c: Cache, dueDate: Option<string>, priority: Option<string>,
                       status: Option<string>): (r: seq<Task>)
    requires Valid(c)
    ensures forall t :: t in r <==>
              (exists k :: k in c.entries && c.entries[k] == t)
              && Filtering.MatchesAll(t, Filtering.Criteria(dueDate, priority, status))
    ensures r == Filtering.Keep(AllTasks(c), Filtering.Criteria(dueDate, priority, status))
  {
    var cs := Filtering.Criteria(dueDate, priority, status);
    var r := Filtering.FilterTasks(AllTasks(c), dueDate, priority, status);
    assert forall t :: (t in r) == (t in AllTasks(c) && Filtering.MatchesAll(t, cs)) by {
      forall t ensures (t in r) == (t in AllTasks(c) && Filtering.MatchesAll(t, cs)) {
        Filtering.FilterContents(AllTasks(c), dueDate, priority, status, t);
      }
    }
    r
  }

  // ---------------------------------------------------------------------------
  // Adding and deleting
  // ---------------------------------------------------------------------------

  /** `add_task(title, description, due_date, priority, status)` when `insert_task`
      answers `inserted`. A new task is built without an id; if that raises, nothing is
      stored. Otherwise the database is asked to insert it, and only a truthy id that
      the `task_id` setter accepts, that is a positive one, stores the task under it. */
  function AddTask(c: Cache, title: string, description: string, dueDate: string,
                   priority: string, status: string, inserted: Option<int>, now: Timestamp)
    : (r: (Cache, Option<Task>))
    requires Valid(c)
    ensures Valid(r.0)
    ensures var built := NewTask(title, description, dueDate, priority, status, None, None, now);
            r.1.Some? <==> built.Ok? && inserted.Some? && inserted.value > 0
    ensures r.1.None? ==> r.0 == c
    ensures r.1.Some? ==>
              var built := NewTask(title, description, dueDate, priority, status, None, None, now);
              && r.1.value.id == inserted
              && AgreeExcept(built.value, r.1.value, TaskIdField)
              && r.0.entries == c.entries[inserted.value := r.1.value]
    ensures r.1.Some? && inserted.value !in c.entries ==> r.0.keys == c.keys + [inserted.value]
    ensures r.1.Some? && inserted.value in c.entries ==> r.0.keys == c.keys
  {
    var built := NewTask(title, description, dueDate, priority, status, None, None, now);
    if built.Err? then (c, None)
    else if inserted.None? || inserted.value == 0 then (c, None)
    else
      match WithTaskId(built.value, inserted)
      case Err(_) => (c, None)
      case Ok(t) => (Put(c, inserted.value, t), Some(t))
  }

  /** `delete_task(task_id)` when `delete_task` of the database answers `deleted`. An id
      not in the cache is refused before the database is asked; otherwise the id leaves
      the cache exactly when the database reports success. */
  function DeleteTask(c: Cache, id: int, deleted: bool): (r: (Cache, bool))
    requires Valid(c)
    ensures Valid(r.0)
    ensures r.1 <==> id in c.entries && deleted
    ensures r.1 ==> r.0.entries == c.entries - {id} && r.0 == Remove(c, id)
    ensures !r.1 ==> r.0 == c
  {
    if id !in c.entries then (c, false)
    else if deleted then (Remove(c, id), true)
    else (c, false)
  }

  // ---------------------------------------------------------------------------
  // Updating
  // ---------------------------------------------------------------------------

  /** A keyword argument's value, as far as the model distinguishes them. */
  datatype Value = Text(text: string) | Number(number: int) | Nothing

  /** The names of the seven private attributes of a task. */
  const AttributeNames: set<string> :=
    {"task_id", "title", "description", "due_date", "priority", "status", "created_at"}

  /** The attribute `hasattr(task, '_Task__' + key)` finds: exactly the seven private
      attributes, named as in the constructor. */
  function FieldNamed(key: string): (f: Option<Field>)
    ensures f == Some(TaskIdField) <==> key == "task_id"
    ensures f == Some(TitleField) <==> key == "title"
    ensures f == Some(DescriptionField) <==> key == "description"
    ensures f == Some(DueDateField) <==> key == "due_date"
    ensures f == Some(PriorityField) <==> key == "priority"
    ensures f == Some(StatusField) <==> key == "status"
    ensures f == Some(CreatedAtField) <==> key == "created_at"
    ensures f.None? <==> key !in AttributeNames
  {
    if key == "task_id" then Some(TaskIdField)
    else if key == "title" then Some(TitleField)
    else if key == "description" then Some(DescriptionField)
    else if key == "due_date" then Some(DueDateField)
    else if key == "priority" then Some(PriorityField)
    else if key == "status" then Some(StatusField)
    else if key == "created_at" then Some(CreatedAtField)
    else None
  }

  /** The value has the type the attribute holds: an optional integer id, an integer
      instant, or text. */
  predicate Fits(f: Field, v: Value) {
    match f
    case TaskIdField => v.Number? || v.Nothing?
    case CreatedAtField => v.Number?
    case _ => v.Text?
  }

  /** Every recognised keyword carries a value of its attribute's type. */
  predicate WellTyped(kwargs: seq<(string, Value)>) {
    forall i :: 0 <= i < |kwargs| && FieldNamed(kwargs[i].0).Some? ==>
      Fits(FieldNamed(kwargs[i].0).value, kwargs[i].1)
  }

  /** The attribute `f` of `t`, as a keyword value. */
  function FieldValue(t: Task, f: Field): (v: Value)
    ensures Fits(f, v)
  {
    match f
    case TaskIdField => if t.id.Some? then Number(t.id.value) else Nothing
    case TitleField => Text(t.title)
    case DescriptionField => Text(t.description)
    case DueDateField => Text(t.dueDate)
    case PriorityField => Text(t.priority)
    case StatusField => Text(t.status)
    case CreatedAtField => Number(t.createdAt)
  }

  /** `setattr(task, '_Task__' + key, value)`: the raw value goes straight into the
      attribute, past the property setter, without stripping, capitalising or checking. */
  function Write(t: Task, f: Field, v: Value): (r: Task)
    requires Fits(f, v)
    ensures FieldValue(r, f) == v
    ensures AgreeExcept(t, r, f)
  {
    match f
    case TaskIdField => t.(id := if v.Number? then Some(v.number) else None)
    case TitleField => t.(title := v.text)
    case DescriptionField => t.(description := v.text)
    case DueDateField => t.(dueDate := v.text)
    case PriorityField => t.(priority := v.text)
    case StatusField => t.(status := v.text)
    case CreatedAtField => t.(createdAt := v.number)
  }

  /** Tasks that agree on every attribute are the same task. */
  lemma FieldsDetermineTask(a: Task, b: Task)
    requires forall f :: FieldValue(a, f) == FieldValue(b, f)
    ensures a == b
  {
    assert FieldValue(a, TaskIdField) == FieldValue(b, TaskIdField);
    assert FieldValue(a, TitleField) == FieldValue(b, TitleField);
    assert FieldValue(a, DescriptionField) == FieldValue(b, DescriptionField);
    assert FieldValue(a, DueDateField) == FieldValue(b, DueDateField);
    assert FieldValue(a, PriorityField) == FieldValue(b, PriorityField);
    assert FieldValue(a, StatusField) == FieldValue(b, StatusField);
    assert FieldValue(a, CreatedAtField) == FieldValue(b, CreatedAtField);
  }

  /** The value the last keyword naming `f` carries, if any keyword names it. */
  function LastValue(kwargs: seq<(string, Value)>, f: Field): (v: Option<Value>)
    decreases |kwargs|
  {
    if kwargs == [] then None
    else
      var later := LastValue(kwargs[1..], f);
      if later.Some? then later
      else if FieldNamed(kwargs[0].0) == Some(f) then Some(kwargs[0].1)
      else None
  }

  /** The `for key, value in kwargs.items()` loop: keys that name no private attribute
      are skipped, the others are written in order. Afterwards each attribute holds the
      value of the last keyword naming it, and attributes no keyword names keep their
      value. */
  function ApplyKwargs(t: Task, kwargs: seq<(string, Value)>): (r: Task)
    requires WellTyped(kwargs)
    ensures forall f :: FieldValue(r, f)
                          == if LastValue(kwargs, f).Some? then LastValue(kwargs, f).value
                             else FieldValue(t, f)
    decreases |kwargs|
  {
    if kwargs == [] then t
    else
      var (key, value) := kwargs[0];
      var next := match FieldNamed(key)
                  case None => t
                  case Some(f) => Write(t, f, value);
      assert WellTyped(kwargs[1..]) by {
        forall i | 0 <= i < |kwargs[1..]| && FieldNamed(kwargs[1..][i].0).Some?
          ensures Fits(FieldNamed(kwargs[1..][i].0).value, kwargs[1..][i].1) {
          assert kwargs[1..][i] == kwargs[i + 1];
        }
      }
      ApplyKwargs(next, kwargs[1..])
  }

  /** `task_id` is the name of `update_task`'s own parameter, so Python refuses a keyword
      argument of that name (a `TypeError` while binding the call) before the body runs:
      the keywords that reach the loop never include it. */
  predicate BindableKwargs(kwargs: seq<(string, Value)>) {
    forall i :: 0 <= i < |kwargs| ==> kwargs[i].0 != "task_id"
  }

  /** No keyword that reaches the loop names the id attribute. */
  lemma {:induction false} BindableLeavesId(kwargs: seq<(string, Value)>)
    requires BindableKwargs(kwargs)
    ensures LastValue(kwargs, TaskIdField).None?
    decreases |kwargs|
  {
    if kwargs != [] {
      BindableLeavesId(kwargs[1..]);
    }
  }

  /** `update_task(task_id, **kwargs)` when the database's `update_task` answers
      `persisted`. An id not in the cache gives `false` and changes nothing. Otherwise
      the cached task is changed in place by the keyword loop BEFORE the database is
      asked, and the change stays even when the database refuses it; the answer is the
      database's. */
  function UpdateTask(c: Cache, id: int, kwargs: seq<(string, Value)>, persisted: bool)
    : (r: (Cache, bool))
    requires Valid(c) && WellTyped(kwargs) && BindableKwargs(kwargs)
    ensures Valid(r.0)
    ensures id !in c.entries ==> r == (c, false)
    ensures id in c.entries ==> r.1 == persisted && r.0.keys == c.keys
    ensures id in c.entries ==>
              && id in r.0.entries
              && r.0.entries == c.entries[id := r.0.entries[id]]
              && forall f :: FieldValue(r.0.entries[id], f)
                               == if LastValue(kwargs, f).Some? then LastValue(kwargs, f).value
                                  else FieldValue(c.entries[id], f)
    ensures id in c.entries ==> r.0.entries[id].id == c.entries[id].id
  {
    if id !in c.entries then (c, false)
    else
      var t := ApplyKwargs(c.entries[id], kwargs);
      BindableLeavesId(kwargs);
      assert FieldValue(t, TaskIdField) == FieldValue(c.entries[id], TaskIdField);
      (Put(c, id, t), persisted)
  }

  /** `mark_completed(task_id)`: `update_task(task_id, status="Completed")`. */
  function MarkCompleted(c: Cache, id: int, persisted: bool): (r: (Cache, bool))
    requires Valid(c)
    ensures Valid(r.0)
    ensures id !in c.entries ==> r == (c, false)
    ensures id in c.entries ==>
              && r.1 == persisted
              && r.0.keys == c.keys
              && r.0.entries == c.entries[id := c.entries[id].(status := "Completed")]
  {
    var kwargs := [("status", Text("Completed"))];
    assert WellTyped(kwargs) && BindableKwargs(kwargs);
    var r := UpdateTask(c, id, kwargs, persisted);
    if id in c.entries then
      var want := c.entries[id].(status := "Completed");
      assert forall f :: FieldValue(r.0.entries[id], f) == FieldValue(want, f) by {
        forall f ensures FieldValue(r.0.entries[id], f) == FieldValue(want, f) {
          assert LastValue(kwargs, f) == if f == StatusField then Some(Text("Completed")) else None;
        }
      }
      FieldsDetermineTask(r.0.entries[id], want);
      r
    else r
  }

  // ---------------------------------------------------------------------------
  // What the operations preserve, and what they do not
  // ---------------------------------------------------------------------------

  /** Adding keeps the cache consistent: the new task is stored under the id the
      database gave it, and the constructor shaped it. */
  lemma AddKeepsConsistent(c: Cache, title: string, description: string, dueDate: string,
                           priority: string, status: string, inserted: Option<int>,
                           now: Timestamp)
    requires Consistent(c)
    ensures Consistent(AddTask(c, title, description, dueDate, priority, status, inserted, now).0)
  {
    var r := AddTask(c, title, description, dueDate, priority, status, inserted, now);
    if r.1.Some? {
      var built := NewTask(title, description, dueDate, priority, status, None, None, now);
      NewIdKeepsShape(built.value, r.1.value);
      StoreKeepsConsistent(c, r.0, inserted.value, r.1.value);
    }
  }

  /** Giving a task another id leaves it in the shape the constructor gave it. */
  lemma NewIdKeepsShape(a: Task, b: Task)
    requires IsNormalized(a) && AgreeExcept(a, b, TaskIdField)
    ensures IsNormalized(b)
  {
    assert a.title == b.title && a.description == b.description && a.dueDate == b.dueDate;
    assert a.priority == b.priority && a.status == b.status;
  }

  /** Storing a constructor-shaped task under its own id keeps a cache consistent. */
  lemma StoreKeepsConsistent(c: Cache, r: Cache, k: int, t: Task)
    requires Consistent(c) && Valid(r) && r.entries == c.entries[k := t]
    requires t.id == Some(k) && IsNormalized(t)
    ensures Consistent(r)
  {
    forall j | j in r.entries ensures r.entries[j].id == Some(j) && IsNormalized(r.entries[j]) {
      if j != k {
        assert r.entries[j] == c.entries[j];
      }
    }
  }

  /** In a consistent cache, `__eq__` tells cached tasks apart exactly as their keys do:
      two cached tasks are equal exactly when they are stored under the same id. */
  lemma CachedEqualityIsKeyEquality(c: Cache, j: int, k: int)
    requires Consistent(c) && j in c.entries && k in c.entries
    ensures SameTask(c.entries[j], c.entries[k]) <==> j == k
  {
    assert c.entries[j].id == Some(j) && c.entries[k].id == Some(k);
  }

  /** A task that was added is found again under its new id. */
  lemma GetAfterAdd(c: Cache, title: string, description: string, dueDate: string,
                    priority: string, status: string, inserted: Option<int>, now: Timestamp)
    requires Valid(c)
    ensures var (c', added) := AddTask(c, title, description, dueDate, priority, status,
                                       inserted, now);
            added.Some? ==> GetTask(c', inserted.value) == added
  {
  }

  /** Deleting keeps the cache consistent, and a deleted id is no longer found. */
  lemma DeleteKeepsConsistent(c: Cache, id: int, deleted: bool)
    requires Consistent(c)
    ensures Consistent(DeleteTask(c, id, deleted).0)
    ensures DeleteTask(c, id, deleted).1 ==> GetTask(DeleteTask(c, id, deleted).0, id).None?
  {
  }

  /** `"Completed"` has the shape the constructor gives a status. */
  lemma CompletedIsNormalWord()
    ensures IsNormalWord("Completed")
  {
    CapitalizeSpelled("Completed", "Completed");
  }

  /** Marking completed keeps the cache consistent: "Completed" is already stripped and
      capitalised, and the id is untouched. */
  lemma MarkCompletedKeepsConsistent(c: Cache, id: int, persisted: bool)
    requires Consistent(c)
    ensures Consistent(MarkCompleted(c, id, persisted).0)
  {
    if id in c.entries {
      CompletedIsNormalWord();
      StatusWriteKeepsConsistent(c, id, "Completed");
    }
  }

  /** Writing a normal word as the status of a cached task keeps the cache consistent. */
  lemma StatusWriteKeepsConsistent(c: Cache, id: int, s: string)
    requires Consistent(c) && id in c.entries && IsNormalWord(s)
    ensures Consistent(Cache(c.keys, c.entries[id := c.entries[id].(status := s)]))
  {
    var t := c.entries[id].(status := s);
    var r := Cache(c.keys, c.entries[id := t]);
    assert IsNormalized(t) by {
      assert IsNormalized(c.entries[id]);
    }
    forall j | j in r.entries ensures r.entries[j].id == Some(j) && IsNormalized(r.entries[j]) {
      if j != id {
        assert r.entries[j] == c.entries[j];
      }
    }
    assert Valid(r) by {
      assert r.entries.Keys == c.entries.Keys;
    }
  }

  /** The raw value `mark_completed` writes is the one the `status` setter would store
      for "Completed", so bypassing the setter loses nothing here. */
  lemma MarkCompletedMatchesSetter(t: Task)
    ensures WithStatus(t, "Completed") == Ok(t.(status := "Completed"))
  {
    CompletedIsNormalWord();
    TrimStripped("Completed");
    CompletedLowered();
    assert WithStatus(t, "Completed") == Ok(t.(status := Capitalize(Trim("Completed"))));
  }

  /** `"Completed".lower()` is the status name `"completed"`. */
  lemma CompletedLowered()
    ensures Lower("Completed") == "completed"
  {
  }

  /** `update_task` stores text the setters would reject: a priority is written as
      given, not stripped, capitalised or checked. */
  lemma UpdateStoresRawPriority(c: Cache, id: int, p: string, persisted: bool)
    requires Valid(c) && id in c.entries
    ensures WellTyped([("priority", Text(p))]) && BindableKwargs([("priority", Text(p))])
    ensures UpdateTask(c, id, [("priority", Text(p))], persisted).0.entries[id]
              == c.entries[id].(priority := p)
  {
    var kwargs := [("priority", Text(p))];
    var r := UpdateTask(c, id, kwargs, persisted).0;
    var want := c.entries[id].(priority := p);
    forall f ensures FieldValue(r.entries[id], f) == FieldValue(want, f) {
      assert LastValue(kwargs, f) == if f == PriorityField then Some(Text(p)) else None;
    }
    FieldsDetermineTask(r.entries[id], want);
  }

  /** So an update can leave in the cache a priority that the setter and the validator
      both refuse. */
  lemma UpdateBypassesValidation(c: Cache, id: int, persisted: bool)
    requires Valid(c) && id in c.entries
    ensures WellTyped([("priority", Text("urgent"))])
    ensures BindableKwargs([("priority", Text("urgent"))])
    ensures var t := UpdateTask(c, id, [("priority", Text("urgent"))], persisted).0.entries[id];
            && t.priority == "urgent"
            && WithPriority(t, t.priority).Err?
            && !Validators.ValidatePriority(t.priority)
  {
    UpdateStoresRawPriority(c, id, "urgent", persisted);
    var t := UpdateTask(c, id, [("priority", Text("urgent"))], persisted).0.entries[id];
    Validators.UrgentRefused(t);
  }

  /** An update never moves a task or changes its id, so every cached task stays under
      its own id. (The priority, status and text fields may lose the constructor's
      shape: see `UpdateStoresRawPriority`.) */
  lemma UpdateKeepsOwnIds(c: Cache, id: int, kwargs: seq<(string, Value)>, persisted: bool)
    requires Valid(c) && WellTyped(kwargs) && BindableKwargs(kwargs)
    requires forall k :: k in c.entries ==> c.entries[k].id == Some(k)
    ensures var r := UpdateTask(c, id, kwargs, persisted).0;
            forall k :: k in r.entries ==> r.entries[k].id == Some(k)
  {
    var r := UpdateTask(c, id, kwargs, persisted).0;
    forall k | k in r.entries ensures r.entries[k].id == Some(k) {
      if id in c.entries && k != id {
        assert r.entries[k] == c.entries[k];
      }
    }
  }

  /** Keywords that name no attribute change nothing, whatever the database answers. */
  lemma UnknownKeywordsIgnored(c: Cache, id: int, kwargs: seq<(string, Value)>, persisted: bool)
    requires Valid(c) && id in c.entries
    requires forall i :: 0 <= i < |kwargs| ==> FieldNamed(kwargs[i].0).None?
    ensures WellTyped(kwargs) && BindableKwargs(kwargs)
    ensures UpdateTask(c, id, kwargs, persisted).0 == c
  {
    var r := UpdateTask(c, id, kwargs, persisted).0;
    forall f ensures FieldValue(r.entries[id], f) == FieldValue(c.entries[id], f) {
      NoneNamed(kwargs, f);
    }
    FieldsDetermineTask(r.entries[id], c.entries[id]);
    assert r.entries == c.entries;
  }

  lemma {:induction false} NoneNamed(kwargs: seq<(string, Value)>, f: Field)
    requires forall i :: 0 <= i < |kwargs| ==> FieldNamed(kwargs[i].0).None?
    ensures LastValue(kwargs, f).None?
    decreases |kwargs|
  {
    if kwargs != [] {
      NoneNamed(kwargs[1..], f);
    }
  }

  /** The cache an update leaves does not depend on the database's answer: the change is
      made before the database is asked and is never rolled back. */
  lemma UpdateIgnoresRefusal(c: Cache, id: int, kwargs: seq<(string, Value)>)
    requires Valid(c) && WellTyped(kwargs) && BindableKwargs(kwargs)
    ensures UpdateTask(c, id, kwargs, true).0 == UpdateTask(c, id, kwargs, false).0
    ensures UpdateTask(c, id, kwargs, false).1 == false
  {
  }
}

=== FILE: task.dfy ===
/** The `Task` value object of task.py: its constructor, its validating property
    setters, `to_dict` and id-based equality.

    Python's `Task` is a mutable object; here a task is an immutable record and a
    setter returns either the updated record or the `ValueError` it raises. Every
    setter raises before it assigns, so after a failed set the caller keeps the
    record it had. */
module TaskModel {
  import opened Wrappers
  import opened Text
  import Dates

  /** `created_at` is a `datetime` in Python; the model keeps it as an opaque number
      whose order is the order of the instants. */
  type Timestamp = int

  datatype Task = Task(
    id: Option<int>,
    title: string,
    description: string,
    dueDate: string,
    priority: string,
    status: string,
    createdAt: Timestamp)

  /** The `ValueError`s the constructor and the setters raise. */
  datatype TaskError =
    | EmptyTitle | EmptyDescription | EmptyDueDate | EmptyPriority | EmptyStatus
    | BadDateFormat | BadPriority | BadStatus | NonPositiveId

  /** The seven private attributes of a task, `_Task__task_id` to `_Task__created_at`. */
  datatype Field = TaskIdField | TitleField | DescriptionField | DueDateField
                 | PriorityField | StatusField | CreatedAtField

  /** Membership in `['low', 'medium', 'high']`, the names the priority setter accepts. */
  predicate IsPriorityName(s: string) {
    s == "low" || s == "medium" || s == "high"
  }

  /** Membership in `['pending', 'in progress', 'completed']`, the names the status setter accepts. */
  predicate IsStatusName(s: string) {
    s == "pending" || s == "in progress" || s == "completed"
  }

  /** What the priority setter stores: the capitalised names. */
  predicate IsCanonicalPriority(s: string) {
    s == "Low" || s == "Medium" || s == "High"
  }

  /** What the status setter stores: the capitalised names. */
  predicate IsCanonicalStatus(s: string) {
    s == "Pending" || s == "In progress" || s == "Completed"
  }

  /** A non-empty text with nothing to strip: what the constructor stores for a text field. */
  predicate IsNormalText(s: string) {
    s != [] && IsStripped(s)
  }

  /** What the constructor stores for priority and status: stripped and capitalised. */
  predicate IsNormalWord(s: string) {
    IsNormalText(s) && Capitalize(s) == s
  }

  /** The shape of every task the constructor builds. It does not say that the due date
      parses or that priority and status are in their enumerations: the constructor
      checks neither. */
  predicate IsNormalized(t: Task) {
    && IsNormalText(t.title)
    && IsNormalText(t.description)
    && IsNormalText(t.dueDate)
    && IsNormalWord(t.priority)
    && IsNormalWord(t.status)
  }

  /** `Task(title, description, due_date, priority, status, task_id, created_at)`.
      Fails on the first blank text argument, in parameter order; otherwise stores the
      texts stripped and priority and status as `capitalize(strip(x))`, WITHOUT checking
      the date format or the two enumerations. The id is stored as given, and a missing
      `created_at` becomes `now`. */
  function NewTask(title: string, description: string, dueDate: string,
                   priority: string, status: string,
                   id: Option<int>, createdAt: Option<Timestamp>, now: Timestamp)
    : (r: Result<Task, TaskError>)
    ensures r.Ok? <==> !IsBlank(title) && !IsBlank(description) && !IsBlank(dueDate)
                       && !IsBlank(priority) && !IsBlank(status)
    ensures IsBlank(title) ==> r == Err(EmptyTitle)
    ensures !IsBlank(title) && IsBlank(description) ==> r == Err(EmptyDescription)
    ensures !IsBlank(title) && !IsBlank(description) && IsBlank(dueDate) ==> r == Err(EmptyDueDate)
    ensures !IsBlank(title) && !IsBlank(description) && !IsBlank(dueDate) && IsBlank(priority)
            ==> r == Err(EmptyPriority)
    ensures && !IsBlank(title) && !IsBlank(description) && !IsBlank(dueDate)
            && !IsBlank(priority) && IsBlank(status)
            ==> r == Err(EmptyStatus)
    ensures r.Ok? ==> IsNormalized(r.value)
    ensures r.Ok? ==> && r.value.title == Trim(title)
                      && r.value.description == Trim(description)
                      && r.value.dueDate == Trim(dueDate)
                      && Lower(r.value.priority) == Lower(Trim(priority))
                      && Lower(r.value.status) == Lower(Trim(status))
    ensures r.Ok? ==> r.value.id == id
    ensures r.Ok? ==> r.value.createdAt == (if createdAt.Some? then createdAt.value else now)
  {
    if IsBlank(title) then Err(EmptyTitle)
    else if IsBlank(description) then Err(EmptyDescription)
    else if IsBlank(dueDate) then Err(EmptyDueDate)
    else if IsBlank(priority) then Err(EmptyPriority)
    else if IsBlank(status) then Err(EmptyStatus)
    else
      NormalWord(priority);
      NormalWord(status);
      Ok(Task(id, Trim(title), Trim(description), Trim(dueDate),
              Capitalize(Trim(priority)), Capitalize(Trim(status)),
              if createdAt.Some? then createdAt.value else now))
  }

  /** `capitalize(strip(s))` of a non-blank `s` is a normal word with the same
      case-folded letters as `strip(s)`. */
  lemma NormalWord(s: string)
    requires !IsBlank(s)
    ensures IsNormalWord(Capitalize(Trim(s)))
    ensures Lower(Capitalize(Trim(s))) == Lower(Trim(s))
  {
    var t := Trim(s);
    CapitalizeKeepsStripped(t);
    CapitalizeIdempotent(t);
    var c := Capitalize(t);
    var a := Lower(c);
    var b := Lower(t);
    forall i | 0 <= i < |a| ensures a[i] == b[i] {
      if i == 0 {
        assert a[0] == LowerChar(UpperChar(t[0]));
      } else {
        assert a[i] == LowerChar(LowerChar(t[i]));
      }
    }
  }

  // ---------------------------------------------------------------------------
  // Property setters
  // ---------------------------------------------------------------------------

  /** `task.task_id = v`: rejects an id that is present and not positive. */
  function WithTaskId(t: Task, v: Option<int>): (r: Result<Task, TaskError>)
    ensures r.Ok? <==> v.None? || v.value > 0
    ensures r.Err? ==> r.error == NonPositiveId
    ensures r.Ok? ==> r.value.id == v && AgreeExcept(t, r.value, TaskIdField)
  {
    if v.Some? && v.value <= 0 then Err(NonPositiveId) else Ok(t.(id := v))
  }

  /** `task.title = v`: rejects blank text, stores it stripped. */
  function WithTitle(t: Task, v: string): (r: Result<Task, TaskError>)
    ensures r.Ok? <==> !IsBlank(v)
    ensures r.Err? ==> r.error == EmptyTitle
    ensures r.Ok? ==> IsNormalText(r.value.title) && r.value.title == Trim(v)
    ensures r.Ok? ==> AgreeExcept(t, r.value, TitleField)
  {
    if IsBlank(v) then Err(EmptyTitle) else Ok(t.(title := Trim(v)))
  }

  /** `task.description = v`: rejects blank text, stores it stripped. */
  function WithDescription(t: Task, v: string): (r: Result<Task, TaskError>)
    ensures r.Ok? <==> !IsBlank(v)
    ensures r.Err? ==> r.error == EmptyDescription
    ensures r.Ok? ==> IsNormalText(r.value.description) && r.value.description == Trim(v)
    ensures r.Ok? ==> AgreeExcept(t, r.value, DescriptionField)
  {
    if IsBlank(v) then Err(EmptyDescription) else Ok(t.(description := Trim(v)))
  }

  /** `task.due_date = v`: rejects blank text, then text whose stripped form
      `strptime(..., '%Y-%m-%d')` refuses; stores the stripped text (not a re-formatted date). */
  function WithDueDate(t: Task, v: string): (r: Result<Task, TaskError>)
    ensures r.Ok? <==> Dates.ParseDate(Trim(v)).Some?
    ensures IsBlank(v) ==> r == Err(EmptyDueDate)
    ensures !IsBlank(v) && r.Err? ==> r.error == BadDateFormat
    ensures r.Ok? ==> r.value.dueDate == Trim(v) && IsNormalText(r.value.dueDate)
    ensures r.Ok? ==> AgreeExcept(t, r.value, DueDateField)
  {
    if IsBlank(v) then Err(EmptyDueDate)
    else if Dates.ParseDate(Trim(v)).None? then Err(BadDateFormat)
    else Ok(t.(dueDate := Trim(v)))
  }

  /** `task.priority = v`: accepts exactly the texts whose stripped lower-case form is
      low, medium or high, and stores their capitalised form (which `PrioritySetCanonical`
      shows is one of `Low`, `Medium`, `High`). */
  function WithPriority(t: Task, v: string): (r: Result<Task, TaskError>)
    ensures r.Ok? <==> IsPriorityName(Lower(Trim(v)))
    ensures r.Err? ==> r.error == BadPriority
    ensures r.Ok? ==> IsNormalWord(r.value.priority)
    ensures r.Ok? ==> Lower(r.value.priority) == Lower(Trim(v))
    ensures r.Ok? ==> AgreeExcept(t, r.value, PriorityField)
  {
    if v == [] || !IsPriorityName(Lower(Trim(v))) then Err(BadPriority)
    else
      NormalWord(v);
      Ok(t.(priority := Capitalize(Trim(v))))
  }

  /** `task.status = v`: accepts exactly the texts whose stripped lower-case form is
      pending, in progress or completed, and stores their capitalised form (which
      `StatusSetCanonical` shows is one of `Pending`, `In progress`, `Completed`). */
  function WithStatus(t: Task, v: string): (r: Result<Task, TaskError>)
    ensures r.Ok? <==> IsStatusName(Lower(Trim(v)))
    ensures r.Err? ==> r.error == BadStatus
    ensures r.Ok? ==> IsNormalWord(r.value.status)
    ensures r.Ok? ==> Lower(r.value.status) == Lower(Trim(v))
    ensures r.Ok? ==> AgreeExcept(t, r.value, StatusField)
  {
    if v == [] || !IsStatusName(Lower(Trim(v))) then Err(BadStatus)
    else
      NormalWord(v);
      Ok(t.(status := Capitalize(Trim(v))))
  }

  /** On the three priority names, `capitalize()` yields the canonical spelling whatever
      the case of the input. */
  lemma CanonicalPriorityForm(s: string)
    requires IsPriorityName(Lower(s))
    ensures IsCanonicalPriority(Capitalize(s))
  {
    CapitalizeIgnoresCase(s);
    PriorityNamesCapitalized();
  }

  /** On the three status names, `capitalize()` yields the canonical spelling whatever
      the case of the input. */
  lemma CanonicalStatusForm(s: string)
    requires IsStatusName(Lower(s))
    ensures IsCanonicalStatus(Capitalize(s))
  {
    CapitalizeIgnoresCase(s);
    StatusNamesCapitalized();
  }

  /** `capitalize()` of the three lower-case priority names. */
  lemma PriorityNamesCapitalized()
    ensures Capitalize("low") == "Low" && Capitalize("medium") == "Medium"
    ensures Capitalize("high") == "High"
  {
    CapitalizeSpelled("low", "Low");
    CapitalizeSpelled("medium", "Medium");
    CapitalizeSpelled("high", "High");
  }

  /** `capitalize()` of the three lower-case status names. */
  lemma StatusNamesCapitalized()
    ensures Capitalize("pending") == "Pending" && Capitalize("completed") == "Completed"
    ensures Capitalize("in progress") == "In progress"
  {
    PendingCapitalized();
    CompletedCapitalized();
    InProgressCapitalized();
  }

  lemma PendingCapitalized()
    ensures Capitalize("pending") == "Pending"
  {
    CapitalizeSpelled("pending", "Pending");
  }

  lemma CompletedCapitalized()
    ensures Capitalize("completed") == "Completed"
  {
    CapitalizeSpelled("completed", "Completed");
  }

  lemma InProgressCapitalized()
    ensures Capitalize("in progress") == "In progress"
  {
    CapitalizeSpelled("in progress", "In progress");
  }

  lemma CapitalizeSpelled(s: string, w: string)
    requires |s| == |w| && |s| > 0 && w[0] == UpperChar(s[0])
    requires forall i :: 0 < i < |s| ==> w[i] == LowerChar(s[i])
    ensures Capitalize(s) == w
  {
  }

  /** The two tasks hold the same value in every field except possibly `f`. */
  predicate AgreeExcept(a: Task, b: Task, f: Field) {
    && (f == TaskIdField || a.id == b.id)
    && (f == TitleField || a.title == b.title)
    && (f == DescriptionField || a.description == b.description)
    && (f == DueDateField || a.dueDate == b.dueDate)
    && (f == PriorityField || a.priority == b.priority)
    && (f == StatusField || a.status == b.status)
    && (f == CreatedAtField || a.createdAt == b.createdAt)
  }

  /** Whatever the case and padding of the accepted text, the priority setter stores
      one of the three canonical spellings. */
  lemma PrioritySetCanonical(t: Task, v: string)
    requires WithPriority(t, v).Ok?
    ensures IsCanonicalPriority(WithPriority(t, v).value.priority)
  {
    CanonicalPriorityForm(Trim(v));
  }

  /** Whatever the case and padding of the accepted text, the status setter stores
      one of the three canonical spellings; "in progress" keeps its lower-case `p`. */
  lemma StatusSetCanonical(t: Task, v: string)
    requires WithStatus(t, v).Ok?
    ensures IsCanonicalStatus(WithStatus(t, v).value.status)
  {
    CanonicalStatusForm(Trim(v));
  }

  /** Setting priority to the value a successful set stored is a no-op. */
  lemma PrioritySetIdempotent(t: Task, v: string)
    requires WithPriority(t, v).Ok?
    ensures var u := WithPriority(t, v).value;
            WithPriority(u, u.priority) == Ok(u)
  {
    var u := WithPriority(t, v).value;
    var w := u.priority;
    TrimStripped(w);
    assert Lower(Trim(w)) == Lower(Trim(v));
    assert u.(priority := Capitalize(Trim(w))) == u;
  }

  /** Setting status to the value a successful set stored is a no-op. */
  lemma StatusSetIdempotent(t: Task, v: string)
    requires WithStatus(t, v).Ok?
    ensures var u := WithStatus(t, v).value;
            WithStatus(u, u.status) == Ok(u)
  {
    var u := WithStatus(t, v).value;
    var w := u.status;
    TrimStripped(w);
    assert Lower(Trim(w)) == Lower(Trim(v));
    assert u.(status := Capitalize(Trim(w))) == u;
  }

  // ---------------------------------------------------------------------------
  // Snapshot and equality
  // ---------------------------------------------------------------------------

  /** The dictionary `to_dict()` returns: one entry per private attribute. */
  datatype Snapshot = Snapshot(
    taskId: Option<int>,
    title: string,
    description: string,
    dueDate: string,
    priority: string,
    status: string,
    createdAt: Timestamp)

  /** `task.to_dict()`: the stored values, unconverted. For a task in the shape the
      constructor gives, passing the dictionary's entries back to the constructor
      rebuilds the task. */
  function ToDict(t: Task): (d: Snapshot)
    ensures d.taskId == t.id && d.createdAt == t.createdAt
    ensures d.title == t.title && d.description == t.description && d.dueDate == t.dueDate
    ensures d.priority == t.priority && d.status == t.status
    ensures IsNormalized(t) ==>
              NewTask(d.title, d.description, d.dueDate, d.priority, d.status,
                      d.taskId, Some(d.createdAt), 0) == Ok(t)
  {
    if IsNormalized(t) then
      TrimStripped(t.title);
      TrimStripped(t.description);
      TrimStripped(t.dueDate);
      TrimStripped(t.priority);
      TrimStripped(t.status);
      Snapshot(t.id, t.title, t.description, t.dueDate, t.priority, t.status, t.createdAt)
    else
      Snapshot(t.id, t.title, t.description, t.dueDate, t.priority, t.status, t.createdAt)
  }

  /** `a == b` on tasks (`__eq__`): compares the ids and nothing else, so two tasks
      that have no id yet are equal however different their fields. */
  predicate SameTask(a: Task, b: Task) {
    a.id == b.id
  }
}

=== FILE: text.dfy ===
/** The handful of Python `str` operations the task tracker relies on, restricted to
    ASCII: `strip()`, `lower()`, `capitalize()` and the ordering `<=` between strings. */
module Text {

  /** `str.isspace()` for one ASCII character: tab, line feed, vertical tab, form feed,
      carriage return, the separators 0x1C-0x1F, and space. */
  predicate IsSpace(c: char) {
    (9 <= c as int <= 13) || (28 <= c as int <= 32)
  }

  /** True when `s` is empty or holds only whitespace: `not s or not s.strip()`. */
  predicate IsBlank(s: string) {
    forall i :: 0 <= i < |s| ==> IsSpace(s[i])
  }

  /** A string with nothing to strip at either end. */
  predicate IsStripped(s: string) {
    s == [] || (!IsSpace(s[0]) && !IsSpace(s[|s| - 1]))
  }

  /** The index where `s.lstrip()` starts: every character before it is whitespace,
      the character at it (if any) is not. */
  function StripStart(s: string, from: nat := 0): (n: nat)
    requires from <= |s|
    requires forall i :: 0 <= i < from ==> IsSpace(s[i])
    ensures from <= n <= |s|
    ensures forall i :: 0 <= i < n ==> IsSpace(s[i])
    ensures n == |s| || !IsSpace(s[n])
    decreases |s| - from
  {
    if from < |s| && IsSpace(s[from]) then StripStart(s, from + 1) else from
  }

  /** The index where `s.rstrip()` ends, searching down to `low`: every character from it
      on is whitespace, the character before it (if above `low`) is not. */
  function StripEnd(s: string, low: nat, hi: nat): (m: nat)
    requires low <= hi <= |s|
    requires forall i :: hi <= i < |s| ==> IsSpace(s[i])
    ensures low <= m <= hi
    ensures forall i :: m <= i < |s| ==> IsSpace(s[i])
    ensures m == low || !IsSpace(s[m - 1])
    decreases hi
  {
    if low < hi && IsSpace(s[hi - 1]) then StripEnd(s, low, hi - 1) else hi
  }

  /** `s.strip()`: the slice of `s` left once the whitespace at both ends is removed.
      It is empty exactly when `s` is blank, and it keeps every non-whitespace character. */
  function Trim(s: string): (r: string)
    ensures IsStripped(r)
    ensures r == [] <==> IsBlank(s)
    ensures StripStart(s) + |r| <= |s|
    ensures r == s[StripStart(s)..StripStart(s) + |r|]
    ensures forall i :: 0 <= i < |s| && !IsSpace(s[i]) ==>
              StripStart(s) <= i < StripStart(s) + |r|
  {
    var a := StripStart(s);
    var b := StripEnd(s, a, |s|);
    s[a..b]
  }

  /** `str.lower()` on one ASCII character. */
  function LowerChar(c: char): char {
    if 'A' <= c <= 'Z' then (c as int + 32) as char else c
  }

  /** `str.upper()` on one ASCII character. */
  function UpperChar(c: char): char {
    if 'a' <= c <= 'z' then (c as int - 32) as char else c
  }

  /** `s.lower()`: every letter lower-cased, everything else kept in place. */
  function Lower(s: string): (r: string)
    ensures |r| == |s|
    ensures forall i :: 0 <= i < |s| ==> r[i] == LowerChar(s[i])
  {
    if s == [] then [] else [LowerChar(s[0])] + Lower(s[1..])
  }

  /** `s.capitalize()`: first character upper-cased, the rest lower-cased. */
  function Capitalize(s: string): (r: string)
    ensures |r| == |s|
    ensures |s| > 0 ==> r[0] == UpperChar(s[0])
    ensures forall i :: 0 < i < |s| ==> r[i] == LowerChar(s[i])
  {
    if s == [] then [] else [UpperChar(s[0])] + Lower(s[1..])
  }

  /** Python's `a <= b` on strings: lexicographic by code point, a prefix before its extensions. */
  predicate LexLe(a: string, b: string) {
    if a == [] then true
    else if b == [] then false
    else if a[0] != b[0] then a[0] < b[0]
    else LexLe(a[1..], b[1..])
  }

  // ---------------------------------------------------------------------------
  // Facts about the operations above
  // ---------------------------------------------------------------------------

  /** Case changes never turn whitespace into non-whitespace or back. */
  lemma CaseKeepsSpace(c: char)
    ensures IsSpace(LowerChar(c)) <==> IsSpace(c)
    ensures IsSpace(UpperChar(c)) <==> IsSpace(c)
  {
  }

  /** Stripping a string that has nothing to strip returns it unchanged. */
  lemma TrimStripped(s: string)
    requires IsStripped(s)
    ensures Trim(s) == s
  {
  }

  /** `capitalize()` only looks at the letters' case-folded form. */
  lemma {:induction false} CapitalizeIgnoresCase(s: string)
    ensures Capitalize(Lower(s)) == Capitalize(s)
  {
    var l := Lower(s);
    var a := Capitalize(l);
    var b := Capitalize(s);
    assert |a| == |b|;
    forall i | 0 <= i < |a| ensures a[i] == b[i] {
      if i == 0 {
        assert a[0] == UpperChar(LowerChar(s[0]));
      } else {
        assert a[i] == LowerChar(LowerChar(s[i]));
      }
    }
  }

  /** `lower()` is idempotent. */
  lemma LowerIdempotent(s: string)
    ensures Lower(Lower(s)) == Lower(s)
  {
    var a := Lower(Lower(s));
    forall i | 0 <= i < |a| ensures a[i] == Lower(s)[i] {
      assert a[i] == LowerChar(LowerChar(s[i]));
    }
  }

  /** Lower-casing a stripped string leaves it stripped. */
  lemma LowerIsStripped(s: string)
    requires IsStripped(s)
    ensures IsStripped(Lower(s))
  {
    if s != [] {
      CaseKeepsSpace(s[0]);
      CaseKeepsSpace(s[|s| - 1]);
    }
  }

  /** `capitalize()` is idempotent. */
  lemma CapitalizeIdempotent(s: string)
    ensures Capitalize(Capitalize(s)) == Capitalize(s)
  {
    var a := Capitalize(Capitalize(s));
    var b := Capitalize(s);
    forall i | 0 <= i < |a| ensures a[i] == b[i] {
      if i == 0 {
        assert a[0] == UpperChar(UpperChar(s[0]));
      } else {
        assert a[i] == LowerChar(LowerChar(s[i]));
      }
    }
  }

  /** Capitalising a stripped string leaves it stripped, so `strip()` is then a no-op. */
  lemma CapitalizeKeepsStripped(s: string)
    requires IsStripped(s)
    ensures IsStripped(Capitalize(s))
    ensures Trim(Capitalize(s)) == Capitalize(s)
  {
    if s != [] {
      CaseKeepsSpace(s[0]);
      CaseKeepsSpace(s[|s| - 1]);
    }
    TrimStripped(Capitalize(s));
  }

  lemma {:induction false} LexLeTotal(a: string, b: string)
    ensures LexLe(a, b) || LexLe(b, a)
  {
    if a != [] && b != [] && a[0] == b[0] {
      LexLeTotal(a[1..], b[1..]);
    }
  }

  lemma {:induction false} LexLeTransitive(a: string, b: string, c: string)
    requires LexLe(a, b) && LexLe(b, c)
    ensures LexLe(a, c)
  {
    if a != [] && b != [] && c != [] && a[0] == b[0] && b[0] == c[0] {
      LexLeTransitive(a[1..], b[1..], c[1..]);
    }
  }

  lemma {:induction false} LexLeAntisymmetric(a: string, b: string)
    requires LexLe(a, b) && LexLe(b, a)
    ensures a == b
  {
    if a != [] && b != [] {
      LexLeAntisymmetric(a[1..], b[1..]);
      assert a == [a[0]] + a[1..];
      assert b == [b[0]] + b[1..];
    }
  }

  /** Comparing two strings that start with equal-length parts: the first difference
      in those parts decides, and if they are equal the rest decides. */
  lemma {:induction false} LexLeAppend(a: string, b: string, x: string, y: string)
    requires |a| == |b|
    ensures LexLe(a + x, b + y) == if a == b then LexLe(x, y) else LexLe(a, b)
  {
    if a == [] {
      assert a + x == x && b + y == y;
    } else {
      assert (a + x)[0] == a[0] && (b + y)[0] == b[0];
      assert (a + x)[1..] == a[1..] + x && (b + y)[1..] == b[1..] + y;
      if a[0] == b[0] {
        LexLeAppend(a[1..], b[1..], x, y);
        assert a == b <==> a[1..] == b[1..] by {
          assert a == [a[0]] + a[1..] && b == [b[0]] + b[1..];
        }
      }
    }
  }
}

=== FILE: validators.dfy ===
/** The input validators of utils.py: `validate_date`, `validate_priority` and
    `validate_status`, and how they line up with the `Task` setters. */
module Validators {
  import opened Wrappers
  import opened Text
  import Dates
  import opened TaskModel

  /** `validate_date(s)`: whether `strptime(s, '%Y-%m-%d')` succeeds on `s` exactly as
      given (no stripping). An accepted string denotes a real calendar date and has no
      surrounding whitespace. */
  function ValidateDate(s: string): (ok: bool)
    ensures ok <==> Dates.ParseDate(s).Some?
    ensures ok ==> Dates.IsCalendarDate(Dates.ParseDate(s).value)
    ensures ok ==> IsStripped(s) && s != []
  {
    Dates.ParseDate(s).Some?
  }

  /** `validate_priority(p)`: `p.strip().lower()` is low, medium or high. Text it
      accepts is not blank, and capitalised it is one of the spellings the setter
      stores. */
  function ValidatePriority(p: string): (ok: bool)
    ensures ok <==> IsPriorityName(Lower(Trim(p)))
    ensures ok ==> !IsBlank(p)
    ensures ok ==> IsCanonicalPriority(Capitalize(Trim(p)))
  {
    if IsPriorityName(Lower(Trim(p))) then
      CanonicalPriorityForm(Trim(p));
      true
    else false
  }

  /** `validate_status(s)`: `s.strip().lower()` is pending, in progress or completed.
      Text it accepts is not blank, and capitalised it is one of the spellings the
      setter stores. */
  function ValidateStatus(s: string): (ok: bool)
    ensures ok <==> IsStatusName(Lower(Trim(s)))
    ensures ok ==> !IsBlank(s)
    ensures ok ==> IsCanonicalStatus(Capitalize(Trim(s)))
  {
    if IsStatusName(Lower(Trim(s))) then
      CanonicalStatusForm(Trim(s));
      true
    else false
  }

  /** The priority validator and the priority setter test the same membership, so they
      accept exactly the same texts. */
  lemma PriorityValidatorMatchesSetter(t: Task, p: string)
    ensures ValidatePriority(p) <==> WithPriority(t, p).Ok?
  {
  }

  /** The status validator and the status setter test the same membership, so they
      accept exactly the same texts. */
  lemma StatusValidatorMatchesSetter(t: Task, s: string)
    ensures ValidateStatus(s) <==> WithStatus(t, s).Ok?
  {
  }

  /** Both enumeration validators ignore letter case and surrounding whitespace. */
  lemma ValidatorsIgnoreCase(p: string)
    ensures ValidatePriority(p) <==> ValidatePriority(Lower(Trim(p)))
    ensures ValidateStatus(p) <==> ValidateStatus(Lower(Trim(p)))
  {
    var l := Lower(Trim(p));
    if ValidatePriority(p) || ValidateStatus(p) || ValidatePriority(l) || ValidateStatus(l) {
      LowerIsStripped(Trim(p));
      TrimStripped(l);
      LowerIdempotent(Trim(p));
    }
  }

  /** A date the validator accepts is accepted by the `due_date` setter and stored
      verbatim: it has nothing to strip. */
  lemma ValidDateAcceptedBySetter(t: Task, s: string)
    requires ValidateDate(s)
    ensures WithDueDate(t, s) == Ok(t.(dueDate := s))
  {
    TrimStripped(s);
  }

  /** The converse fails: the setter strips before parsing and the validator does not. */
  lemma SetterAcceptsWhatValidatorRejects()
    ensures !ValidateDate(" 2024-01-15")
    ensures WithDueDate(Task(None, "t", "d", "x", "Low", "Pending", 0), " 2024-01-15").Ok?
  {
    PaddedDateTrimmed();
    JanuaryParses();
  }

  lemma PaddedDateTrimmed()
    ensures Trim(" 2024-01-15") == "2024-01-15"
  {
  }

  lemma JanuaryParses()
    ensures Dates.ParseDate("2024-01-15") == Some(Dates.Date(2024, 1, 15))
  {
    assert "2024-01-15"[5..] == "01-15";
    assert Dates.MonthField("01-15") == Some((1, "15"));
  }

  /** On zero-padded `YYYY-MM-DD` strings the validator accepts exactly the real
      calendar dates: month 13, February 30, April 31 and year 0 are all refused. */
  lemma ValidateDateOnIsoForms(d: Dates.Date)
    requires Dates.IsFormattable(d)
    ensures ValidateDate(Dates.FormatIso(d)) <==> Dates.IsCalendarDate(d)
  {
    Dates.IsoRoundTrip(d);
  }

  /** February 29 of a year passes exactly when the year is a leap year: every fourth
      year, except centuries not divisible by 400. */
  lemma LeapDayRule(year: int)
    requires 1 <= year <= 9999
    ensures ValidateDate(Dates.FormatIso(Dates.Date(year, 2, 29))) <==> Dates.IsLeapYear(year)
  {
    Dates.IsoRoundTrip(Dates.Date(year, 2, 29));
  }

  /** Month 13 and a day past the month's end are rejected. */
  lemma ImpossibleDatesRejected()
    ensures !ValidateDate("2024-13-01")
    ensures !ValidateDate("2024-02-30")
    ensures !ValidateDate("2024-04-31")
    ensures !ValidateDate("0000-01-01")
  {
  }

  /** `strptime` also takes a month or day without its leading zero, and a day padded
      with one space; it refuses anything left over after the day. */
  lemma LenientDateForms()
    ensures ValidateDate("2024-3-5") && ValidateDate("2024-03- 5")
    ensures !ValidateDate("2024-03-5x") && !ValidateDate("2024-03-05 ")
  {
  }

  /** The constructor checks only for blank text: it builds a task whose due date has
      month 13 and whose priority is no priority name, both of which the setters and
      the validators refuse. */
  lemma ConstructorDoesNotValidate(t: Task)
    ensures NewTask("t", "d", "2024-13-01", "urgent", "Pending", None, None, 0).Ok?
    ensures WithDueDate(t, "2024-13-01").Err? && !ValidateDate("2024-13-01")
    ensures WithPriority(t, "urgent").Err? && !ValidatePriority("urgent")
  {
    SampleTextsNotBlank();
    MonthThirteenRefused(t);
    UrgentRefused(t);
  }

  lemma SampleTextsNotBlank()
    ensures !IsBlank("t") && !IsBlank("d") && !IsBlank("2024-13-01")
    ensures !IsBlank("urgent") && !IsBlank("Pending")
  {
    assert "t"[0] == 't' && "d"[0] == 'd' && "2024-13-01"[0] == '2';
    assert "urgent"[0] == 'u' && "Pending"[0] == 'P';
  }

  lemma MonthThirteenRefused(t: Task)
    ensures WithDueDate(t, "2024-13-01").Err? && !ValidateDate("2024-13-01")
  {
    ImpossibleDatesRejected();
    TrimStripped("2024-13-01");
  }

  lemma UrgentRefused(t: Task)
    ensures WithPriority(t, "urgent").Err? && !ValidatePriority("urgent")
  {
    TrimStripped("urgent");
    var l := Lower("urgent");
    assert l[0] == 'u';
    assert l != "low" && l != "medium" && l != "high" by {
      assert "low"[0] == 'l' && "medium"[0] == 'm' && "high"[0] == 'h';
    }
  }
}

=== FILE: wrappers.dfy ===
/** Option and Result, the two failure-carrying shapes the model uses in place of
    Python's `None` returns and raised `ValueError`s. */
module Wrappers {

  /** A value that may be absent (Python's `Optional[T]`). */
  datatype Option<+T> = None | Some(value: T)

  /** Either a value or the error that stopped the computation. */
  datatype Result<+T, +E> = Ok(value: T) | Err(error: E)
}
